=== FILE: README.md ===
# Hempdash dashboard: a Dafny model of its data rules

Hempdash is a small customer-relationship dashboard for a hemp shop. Customers are stored with their demographic answers. Emails belong to customers and go from `pending` to `sent` or `failed`. The dashboard aggregates statistics, generates and sends emails, and offers a filterable, sortable email table and an add-customer form. This project models the pure rules inside those routes and pages, over in-memory sequences of records, and proves what they promise.

Modules, one per source file, plus shared helpers:

- `Records`: the two persisted entities, `Customer` and `Email`. It also holds the email `Status` and the `ListField` shape of the stored list fields: absent, one delimited string, or an array.
- `Outcomes`, `Seqs`, `Text`, `Numbers`, `Tally`: shared helpers.
  - `Option`/`Result`.
  - An order-keeping `Filter`.
  - JavaScript's `split`, `join`, `trim`, `includes`, ASCII `toLowerCase`, and the whitespace strip of `replace(/\s+/g, '')`.
  - Half-up rounding, i.e. `Math.round` on non-negative values.
  - The insertion-ordered frequency table of a JavaScript object used as a counter.
- `Stats` (`app/api/stats/route.ts`):
  - the age buckets;
  - the one-pass aggregation into ten frequency tables;
  - the loyalty rate, the average age and the four "most common" metrics.
- `CustomerApi` (`app/api/customers/route.ts`):
  - listing, which normalises `preferredProducts` into an array;
  - creation, which resolves the "Other" reason and joins the product array with `","`.
- `Dispatch` (`app/api/emails/send/route.ts`): the simulated `sendEmail` and the pending-email batch.
  - The random draws are an input, one per pending email.
- `Generation` (`app/api/emails/generate/route.ts`):
  - selection of the customers that own no email;
  - subjects;
  - bodies over already parsed lists, and which parse results make a template throw.
- `MockData` (`app/api/mock-data/route.ts`): the seeder.
  - Every faker choice is an input, constrained by `ValidPicks`.
  - Each customer is created with exactly three typed emails.
- `EmailPages` (`app/api/emails/route.ts`): the page and limit defaults, the skip, the page count and the page slice.
- `EmailTable` (`app/emails/page.tsx`):
  - the status and search filters;
  - the stable sort by the clicked column and the sort-toggle state;
  - the page-size reset;
  - the header figures.
- `CustomerForm` (`app/components/AddCustomerModal.tsx`):
  - the whitespace-insensitive option pickers;
  - `handleInterestsChange`, which the form declares but never calls;
  - the primary-reason / "Other" rule;
  - the submission through the customers page's `onAdd`, which never rejects (see Findings).

Randomness, database ids and the clock are parameters. `Math.random()` draws are `real`s in `[0, 1)`; ids and `now` are naturals and integers supplied by the caller. The store's `createdAt: 'desc'` ordering is an input sequence.

Two facts about the generate route shape its model:

- It creates emails with `isSent: false` and sets no `status`, although every other route tracks emails by `status`. `Generation.Draft` therefore carries `isSent` and no status.
- It parses `customer.interests`, a field that no route of this model writes (the routes write `interestsHobbies`). What each parse yields is an input: a syntax error, a value that is not an array (for instance `null` from a null column), or two arrays.

## Model

| member | source | states |
|---|---|---|
| Records.StatusName | app/api/emails/send/route.ts:45 | each status is stored as one of the three strings "pending", "sent", "failed" |
| Text.Split | app/api/customers/route.ts:22 | `split` yields at least one piece; joining the pieces with the separator gives back the string; no piece contains the separator |
| Text.SplitJoin | app/api/mock-data/route.ts:20-27 | splitting a join recovers the list, provided no element can run into the separator |
| Text.SplitCountsSeparators | app/api/customers/route.ts:22 | splitting on a one-character separator gives one more piece than the string has occurrences of it |
| Text.Trim | app/api/customers/route.ts:22 | `trim` keeps the infix between the leading and the trailing whitespace: every cut character is whitespace, the result neither starts nor ends with whitespace, and an already trimmed string is unchanged |
| Text.StripSpaces | app/components/AddCustomerModal.tsx:89 | `replace(/\s+/g, '')` keeps exactly the non-whitespace characters, in order, so the result holds no whitespace |
| Text.StripSpacesOfBlank | app/components/AddCustomerModal.tsx:89-90 | a string of whitespace only strips to the empty string |
| Tally.Bump | app/api/stats/route.ts:64 | `t[k] = (t[k] \|\| 0) + 1`: k's count rises by one, other counts stay the same, k joins the key order at the end on first sight, the total rises by one |
| Tally.KeysCounted | app/api/stats/route.ts:64 | in a well-formed table a key is listed exactly when its count is at least one |
| Tally.Count | app/api/stats/route.ts:70-72 | counting a list of keys keeps the table well formed and adds the list's length to the total |
| Tally.CountOfCount | app/api/stats/route.ts:70-72 | after counting, every key's count is its old count plus its number of occurrences in the list |
| Tally.CountAppend | app/api/stats/route.ts:61-96 | counting two lists one after the other is counting their concatenation |
| Stats.AgeGroup | app/api/stats/route.ts:142-148 | the bucket of every age, in both directions: below 25 is "18-24" (under-18s included), then 25-34, 35-44, 45-54, and "55+" from 55 |
| Stats.Absorb | app/api/stats/route.ts:61-96 | one customer's step of the aggregation keeps every table well formed |
| Stats.AbsorbAll | app/api/stats/route.ts:61-96 | the `forEach` over all customers keeps every table well formed |
| Stats.Tabulate | app/api/stats/route.ts:61-96 | each single-valued table gains exactly one count per customer; the product and interest tables gain one per `", "` piece; each age bucket gains exactly the customers in it |
| Stats.AbsorbAllTabulates | app/api/stats/route.ts:61-96 | the customer-by-customer loop equals the column-wise tabulation |
| Stats.InAgeGroupCounted | app/api/stats/route.ts:63-64 | the occurrences of a bucket among the customers' buckets are the customers whose age falls in it |
| Stats.FirstMax | app/api/stats/route.ts:104-111 | the entry a stable descending sort puts first: a largest count, and the earliest-inserted among ties |
| Stats.FirstMaxUnique | app/api/stats/route.ts:104-111 | there is only one such entry, so the tie-break is determined |
| Stats.Mode | app/api/stats/route.ts:104-111 | "N/A" for an empty table; otherwise the first-inserted key of highest count, with an empty key read as "N/A" |
| Stats.LoyaltyRate | app/api/stats/route.ts:100 | 0 with no customers; otherwise members/total·100, which lies in [0, 100] when members ≤ total |
| Stats.AverageAge | app/api/stats/route.ts:101-103 | 0 for no customers; otherwise within one half of the mean age, rounding halves up |
| Stats.AverageAgeWithin | app/api/stats/route.ts:101-103 | the average age lies between the least and the greatest age bound of the customers |
| Stats.GetStats | app/api/stats/route.ts:49-132 | the route fails exactly when some customer's product or interest field is not a string (`split` throws); otherwise it echoes the store counts, reports the tabulated demographics, and its engagement metrics are the loyalty rate, the average age and the most common entry of the product, reason, shopping and discovery tables |
| Stats.StatsCountEveryone | app/api/stats/route.ts:61-96 | with countable customers every single-valued table sums to the number of customers, the product and interest tables to the number of pieces, and each age bucket counts its customers |
| Stats.EmptyStoreStats | app/api/stats/route.ts:99-112 | an empty store reports loyalty rate 0, average age 0 and "N/A" for all four metrics |
| Stats.CommaJoinAvoidsCommaSpace | app/api/customers/route.ts:41-43 | a `","` join of comma-free items that do not start with a space contains no `", "` |
| Stats.FormProductsCountAsOneKey | app/api/stats/route.ts:70-72 | a product list saved by the customer form is counted as one combined key, because stats splits on `", "` |
| CustomerApi.TrimAll | app/api/customers/route.ts:22 | the `map(p => p.trim())` keeps the length and trims each piece in place |
| CustomerApi.ReadList | app/api/customers/route.ts:19-23 | null or "" reads as []; an array reads as itself; any other string reads as its comma pieces, trimmed, in order, one more than its commas |
| CustomerApi.ReadCustomer | app/api/customers/route.ts:17-24 | only `preferredProducts` is rewritten; every other field and the emails are kept |
| CustomerApi.ListCustomers | app/api/customers/route.ts:17-24 | the listing keeps the rows and their order and rewrites each one |
| CustomerApi.ListingIsStable | app/api/customers/route.ts:17-24 | normalising an already normalised listing changes nothing |
| CustomerApi.PrepareCreate | app/api/customers/route.ts:37-51 | "Other" is replaced by the typed-in reason and any other reason is kept; an array of products is joined with `","` and anything else is passed through; `preferredShopping` copies the shopping method; nothing else changes |
| CustomerApi.CreateThenRead | app/api/customers/route.ts:41-43 | products saved as an array of non-empty, comma-free, trimmed names read back as the same array, the empty array included |
| Dispatch.SendEmail | app/api/emails/send/route.ts:5-21 | delivery succeeds exactly when the draw is not below the 0.2 failure rate; the failure is a result, never an error |
| Dispatch.PendingEmails | app/api/emails/send/route.ts:26-33 | exactly the pending emails of the store, in store order |
| Dispatch.Resolve | app/api/emails/send/route.ts:42-48 | an email becomes sent or failed by its outcome, with `updatedAt` set to now; nothing else changes |
| Dispatch.CountsPartition | app/api/emails/send/route.ts:52-53 | the pending, sent and failed counts of a batch add up to its length |
| Dispatch.ResolveAll | app/api/emails/send/route.ts:38-50 | the results keep the pending order, one per pending email; none stays pending; the sent count is the number of successful draws |
| Dispatch.SendPending | app/api/emails/send/route.ts:38-59 | sent + failed = processed = number of pending emails; result i is pending email i resolved by draw i |
| Dispatch.FindById | app/api/emails/send/route.ts:42-43 | the update found for an id belongs to the batch and carries that id; none is found only when no update has it |
| Dispatch.ApplyUpdates | app/api/emails/send/route.ts:42-48 | writing the updates back keeps the store's size |
| Dispatch.SendLeavesNothingPending | app/api/emails/send/route.ts:38-50 | with distinct ids, after the batch no email is pending; emails that were not pending are untouched; pending ones changed only their status and `updatedAt` |
| Dispatch.UpdateFor | app/api/emails/send/route.ts:42-48 | the store's email i after the write-back: itself if not pending, else its own update |
| Dispatch.PendingHasUpdate | app/api/emails/send/route.ts:42-43 | every pending email has an update written for its id |
| Generation.Subject | app/api/emails/generate/route.ts:47-58 | the subject for "followup", for "promotion", and the welcome subject for every other template |
| Generation.UnknownTemplateSubject | app/api/emails/generate/route.ts:55-56 | an unrecognised template gets exactly the welcome subject |
| Generation.SubjectNamesCustomer | app/api/emails/generate/route.ts:49-56 | every subject contains the customer's first name |
| Generation.SubjectsDistinct | app/api/emails/generate/route.ts:47-54 | the three recognised templates give three different subjects for any name |
| Generation.ListItemsAppend | app/api/emails/generate/route.ts:89 | the `<li>` rendering of a concatenation is the concatenation of the renderings |
| Generation.ListItemsHoldEachProduct | app/api/emails/generate/route.ts:89 | every product appears as its own `<li>` item |
| Generation.Body | app/api/emails/generate/route.ts:64-116 | the body for each of the three templates, and the default body for any other |
| Generation.BodiesNameLists | app/api/emails/generate/route.ts:66-106 | the welcome and the promotion bodies contain the products and the interests, each joined with ", " |
| Generation.FollowUpListsProducts | app/api/emails/generate/route.ts:81-94 | the follow-up body contains the joined interests and one `<li>` per product |
| Generation.DefaultBodyIgnoresLists | app/api/emails/generate/route.ts:107-115 | for an unrecognised template the body does not depend on the lists |
| Generation.Selected | app/api/emails/generate/route.ts:9-15 | exactly the customers that own no email, in store order |
| Generation.Render | app/api/emails/generate/route.ts:19-29 | the created record is for that customer, is not sent, and carries the template's subject and body |
| Generation.Drafted | app/api/emails/generate/route.ts:18-116 | one callback: it throws exactly when `JSON.parse` fails, or when a value is not an array and the template is "welcome", "followup" or "promotion", which call `join`/`map`; otherwise it creates an unsent record for that customer with the template's subject, whose body is the default one for any other template |
| Generation.RenderAll | app/api/emails/generate/route.ts:17-31 | no result when some callback throws; otherwise one draft per selected customer, in order |
| Generation.RenderParsed | app/api/emails/generate/route.ts:17-31 | the emails created by the `Promise.all` callbacks: at most one per selected customer, one for each exactly when no callback throws |
| Generation.RenderParsedHas | app/api/emails/generate/route.ts:19-29 | every selected customer whose callback does not throw gets its email created, whatever happens to the others |
| Generation.RenderAllParsed | app/api/emails/generate/route.ts:17-31 | when no callback throws, the created emails are exactly the rendered batch |
| Generation.DraftsOwnNoEmail | app/api/emails/generate/route.ts:22-29 | every created email is unsent and goes to a customer without email |
| Generation.Generate | app/api/emails/generate/route.ts:4-45 | the answer is the error ("Failed to generate emails") exactly when some selected customer's callback throws; the customers whose callback does not throw get their email even then; on success the answer is the created emails, one per selected customer, in order |
| Generation.DefaultTemplateFailsOnlyOnSyntax | app/api/emails/generate/route.ts:60-115 | under an unrecognised template only a `JSON.parse` syntax error makes the route fail; values that are not arrays render the default body |
| Generation.Route | app/api/emails/generate/route.ts:4-45 | with the route's own wording: the same failure condition, the success answer is what was created, and every created email is unsent and goes to a customer that owned none |
| Generation.CustomersWithEmailSkipped | app/api/emails/generate/route.ts:9-15 | a customer that already owns an email never receives a generated one, even from a batch that fails |
| MockData.SeedCustomer | app/api/mock-data/route.ts:13-104 | the created customer carries the picks, with the lists joined by ", "; valid picks give an age in [18, 75] and string list fields |
| MockData.Subject | app/api/mock-data/route.ts:142-153 | any type other than the three seeded ones gets "Hello <firstName>!" |
| MockData.SubjectNamesCustomer | app/api/mock-data/route.ts:142-153 | every subject contains the first name |
| MockData.SubjectsDistinct | app/api/mock-data/route.ts:142-149 | the three seeded types give pairwise different subjects |
| MockData.Body | app/api/mock-data/route.ts:163-164 | any other type gets the plain default body |
| MockData.BodiesQuoteProducts | app/api/mock-data/route.ts:157-162 | the three seeded bodies quote the product string verbatim |
| MockData.DefaultBodyIgnoresProducts | app/api/mock-data/route.ts:163-164 | the default body does not depend on the products |
| MockData.SeedEmails | app/api/mock-data/route.ts:111-124 | three emails per customer, one of each type in order, each with its drawn status, its subject and its body |
| MockData.Seed | app/api/mock-data/route.ts:108-127 | n picks give n customers and exactly 3n emails |
| MockData.SeedTriples | app/api/mock-data/route.ts:108-127 | emails 3i to 3i+2 are customer i's three emails |
| MockData.SeededEmail | app/api/mock-data/route.ts:110-125 | seeded email 3i+k belongs to customer i, has type k, status draw 3i+k, and type k's subject and body |
| MockData.SeededListSplitsBack | app/api/mock-data/route.ts:20-27 | splitting a seeded list on ", " recovers the chosen items exactly |
| MockData.CatalogsWithoutComma | app/api/mock-data/route.ts:20-27 | no product or interest of the seeder's catalogs contains a comma |
| MockData.SeededCustomerCountsPicks | app/api/mock-data/route.ts:20-27 | the statistics split a seeded customer's lists back into exactly the picked items |
| EmailPages.OrDefault | app/api/emails/route.ts:7-8 | an absent parameter takes the default, a present one is kept |
| EmailPages.Skip | app/api/emails/route.ts:9 | page 1 skips nothing; skip + limit = page·limit; non-negative for page ≥ 1 and limit ≥ 0 |
| EmailPages.TotalPages | app/api/emails/route.ts:41 | a zero limit gives null; for a positive limit the count is 0 exactly when the total is 0, and (pages−1)·limit < total ≤ pages·limit |
| EmailPages.Window | app/api/emails/route.ts:29-30 | at most `limit` rows, exactly the rows from `skip` on, fewer only at the end |
| EmailPages.WindowFromEnd | app/api/emails/route.ts:29-30 | a negative `take` of `-count`: at most `count` rows, exactly the rows that end `skip` rows before the end of the order, fewer only at the start |
| EmailPages.WindowFromEndReverses | app/api/emails/route.ts:26-31 | a negative `take` is the positive window of the reversed order, turned back into the original order |
| EmailPages.WindowFromEndKeepsOrder | app/api/emails/route.ts:26-31 | a window taken from the end of a newest-first order is newest first |
| EmailPages.ListEmails | app/api/emails/route.ts:4-51 | the route fails exactly when the skip is negative; otherwise a non-negative limit gives the `[skip, skip+limit)` slice of the newest-first order, a negative limit gives the rows counted back from the end, and the pagination echoes the total, page and limit with the page count |
| EmailPages.PagesUpToTotal | app/api/emails/route.ts:9-41 | with a positive limit a page holds emails exactly when it is at most the page count, and every earlier page is full |
| EmailPages.PageKeepsOrder | app/api/emails/route.ts:26-31 | a page of a newest-first order is newest first |
| EmailPages.WindowKeepsOrder | app/api/emails/route.ts:26-31 | any slice of a newest-first order is newest first |
| EmailTable.HandleSort | app/emails/page.tsx:87-92 | the key becomes the clicked column; a new column sorts ascending; the same column flips its direction |
| EmailTable.HandleSortTwice | app/emails/page.tsx:87-92 | two clicks on the current column restore the state; two on a new column leave it descending |
| EmailTable.StrCmpZero | app/emails/page.tsx:117-125 | the ordinal string comparison is zero exactly for equal strings |
| EmailTable.StrCmpAntisymmetric | app/emails/page.tsx:117-125 | swapping the strings negates the comparison |
| EmailTable.StrCmpTransitive | app/emails/page.tsx:117-125 | the comparison is transitive |
| EmailTable.LeqTotal | app/emails/page.tsx:113-132 | the directed comparator orders any two rows one way or the other |
| EmailTable.LeqTransitive | app/emails/page.tsx:113-132 | the directed comparator is transitive, ascending or descending |
| EmailTable.Insert | app/emails/page.tsx:113-132 | inserting into a sorted list adds exactly that row and keeps the list sorted |
| EmailTable.SortRows | app/emails/page.tsx:113-132 | the sort is a permutation of its input, ordered by the comparator (negated for descending) |
| EmailTable.InsertKeepsRankOrder | app/emails/page.tsx:113-132 | an inserted row joins its rank class as its last member |
| EmailTable.SortIsStable | app/emails/page.tsx:113-132 | rows that compare equal keep their input order |
| EmailTable.ApplyFilters | app/emails/page.tsx:94-135 | a row is shown exactly when it is fetched, matches the status filter, and matches the search |
| EmailTable.FiltersCompose | app/emails/page.tsx:97-110 | the status filter and then the search, each skipped when inactive, keep the same rows as the one combined filter |
| EmailTable.SortPanelIgnored | app/emails/page.tsx:94-135 | the panel's `sortBy` and `sortOrder` do not change the table |
| EmailTable.PageSizeChange | app/emails/page.tsx:164-167 | a new page size resets to page 1, which skips nothing |
| EmailTable.PendingCount | app/emails/page.tsx:245 | the header's pending figure is the number of fetched rows with status pending |
| EmailTable.ShownSuccessRate | app/emails/page.tsx:251-253 | as written: "0%" for a zero total, else the sent rows of the current page over the total of all pages, rounded |
| EmailTable.SuccessRate | app/emails/page.tsx:251-253 | corrected: sent over all emails, rounded, within [0, 100] |
| EmailTable.PageRateUnderstates | app/emails/page.tsx:251-253 | 20 emails, all sent, with 10 per page: the page shows 50% where the rate is 100% |
| CustomerForm.FilterOptions | app/components/AddCustomerModal.tsx:84-91 | an empty query lists every option; otherwise an option is listed exactly when its squashed form contains the squashed query, as often as it occurs among the options; the list keeps the catalog order |
| CustomerForm.BlankQueryListsAll | app/components/AddCustomerModal.tsx:89-90 | a query of whitespace only lists every option |
| CustomerForm.HandleInterestsChange | app/components/AddCustomerModal.tsx:131-138 | the declared but uncalled handler: checking appends the interest, duplicates included; unchecking removes every occurrence and keeps the rest in order with its counts; no other field changes |
| CustomerForm.CheckThenUncheck | app/components/AddCustomerModal.tsx:131-138 | checking an unchosen interest and unchecking it restores the form |
| CustomerForm.HandlePrimaryReasonChange | app/components/AddCustomerModal.tsx:123-129 | the reason becomes the new value; the typed-in reason is kept exactly when "Other" is chosen and cleared otherwise; no other field changes |
| CustomerForm.ToRequest | app/components/AddCustomerModal.tsx:93-96 | the form posts its pickers as arrays and its reasons as they stand |
| CustomerForm.ReasonStoredAfterChange | app/components/AddCustomerModal.tsx:123-129 | after a reason change the route stores the typed-in reason exactly when "Other" was chosen, and the chosen reason otherwise |
| CustomerForm.Submit | app/components/AddCustomerModal.tsx:93-121 | once `onAdd` resolves the modal closes and the form is blanked; when it rejects, modal and form are left unchanged |
| CustomerForm.PageAdd | app/customers/page.tsx:53-73 | the page's `onAdd` resolves whether or not the create request succeeds |
| CustomerForm.SubmitOnPage | app/customers/page.tsx:53-97 | as written: every submission closes the modal and blanks the form, a failed create included |
| CustomerForm.FailedCreateLosesForm | app/components/AddCustomerModal.tsx:95-119 | a failed create wipes a filled-in form, where the form's own `catch` would have kept it |
| CustomerForm.PageAddRethrowing | app/customers/page.tsx:53-73 | with the failure passed on, `onAdd` resolves exactly when the customer was created |
| CustomerForm.SubmitOnPageCorrected | app/customers/page.tsx:53-97 | a created customer closes and blanks the modal; a failed create leaves it open with the form as typed |
| CustomerForm.PickedProductsRoundTrip | app/components/AddCustomerModal.tsx:75-82 | catalog products picked in the form, saved and listed again, come back as picked |
| CustomerForm.CatalogStorable | app/components/AddCustomerModal.tsx:75-82 | every catalog product is a non-empty, comma-free, trimmed name |

## Left out

- Persistence and I/O: Prisma queries, `request.json()`, `NextResponse`, `fetch` and logging. The store is a sequence of records. A failing query, and the 500 it produces, is not modelled, except where the model's own input makes the route throw.
- Store-driven totals: the statistics route reads `totalCustomers`, `loyaltyMembers`, `totalEmails` and `sentToday` straight from the store, and "today" depends on the clock. They are inputs (`StoreCounts`).
- Randomness and timing: `Math.random`, the one-second `setTimeout` and every faker call are inputs. The send draws are reals; the seeder's choices are constrained by `ValidPicks`.
- Concurrency: `Promise.all` is an order-keeping sequential map. The race between selecting customers and creating their emails is not modelled. In the generate route every callback runs even after one rejects, so the created emails are listed in selection order, not in the order the creations finish.
- Stats.LoyaltyRate: computed in exact reals, not IEEE doubles, so the float rounding of `(members / total) * 100` is not modelled.
- EmailTable.ShownSuccessRate and EmailTable.SuccessRate: the percentage is half-up rounding of exact ratios. The float division before `Math.round` is not modelled.
- `toFixed`, `toLocaleDateString` and other display formatting are not modelled.
- `localeCompare` is ordinal (code-point) comparison. `toLowerCase` lowercases ASCII letters only. `new Date(...).getTime()` is an integer timestamp.
- Text.Trim and Text.StripSpaces: whitespace is the six ASCII characters space, tab, line feed, carriage return, vertical tab and form feed. JavaScript's `trim` and `\s` also match U+00A0, U+FEFF, U+1680, U+2000–U+200A, U+2028, U+2029, U+202F, U+205F and U+3000, which the model keeps as ordinary characters.
- `parseInt` is not modelled. The page and limit parameters arrive as integers or as absent, so a non-numeric parameter (NaN) is not modelled.
- A negative skip is refused by the store. It is modelled as the route's error response, since that is what Prisma's rejection turns into. A negative take is accepted and counts from the end of the order (`EmailPages.WindowFromEnd`).
- `JSON.parse` in the generate route is an input: one parse outcome per selected customer (`Generation.Parse`). Arrays are taken to hold strings; an array of other values, which `join` would stringify, is not modelled.
- Generation.Body: the bodies are rendered over a wording parameter. `Generation.Wording` holds the route's text, and `Generation.Route` renders with it. The properties about bodies hold for every wording, not only the route's.
- The two pickers' own selection updates (app/components/AddCustomerModal.tsx:238 for products, :435 for interests) are not modelled: each replaces the whole list with the picker's value. The check box inside an interest option has an empty `onChange`, so `CustomerForm.HandleInterestsChange` models a handler the rendered form never reaches.
- Dispatch.ResolveAll and Dispatch.SendPending: every update of one batch gets the same `now`. The route reads `new Date()` once per email, after that email's one-second wait, so the real timestamps of one batch differ and increase.
- Object keys that look like integers: JavaScript enumerates them before other keys. That would change the "most common" tie-break; the frequency tables keep pure insertion order.
- Tally.Bump: counts every key as an ordinary own property of an empty table. The route's counters are `{}` literals, so a key naming an `Object.prototype` member ("constructor", "toString", "hasOwnProperty", …) starts from that inherited function and its count becomes a string, and a "__proto__" key is not counted at all. Such keys can arrive through a product name or an "Other" reason typed by the user.
- The response messages that embed counts ("Processed n emails: …", "Generated n emails") are not modelled. The counts themselves are.
- The `preferredShopping` column that creation writes alongside the shopping method is only copied (`CustomerApi.PrepareCreate`). The store schema is not part of this model.
- The add-customer form posts `interestsHobbies` as an array, and the create route passes it through unjoined. How the store keeps it is not part of this model.
- HTML validity of email bodies: bodies are plain string concatenation.
- Pure presentation is not modelled: the landing page, layout, navigation bar, cards, charts, customer list, email preview and the modal shells, including `EmailFilters`' plain field update.
- `types/index.ts` is not part of this model. Its field names (`isSent`, `interests`) disagree with the routes, which the model follows.

## Findings

| source | as written | input that shows it | evidently intended | confidence | as-written member | corrected member |
|---|---|---|---|---|---|---|
| app/emails/page.tsx:251-253 | the success rate divides the sent emails of the current page by the total number of emails of all pages | 20 emails, all sent, 10 per page: the first page shows 50% | the share of sent emails among all emails, 100% here | not executed | EmailTable.ShownSuccessRate (with EmailTable.PageRateUnderstates) | EmailTable.SuccessRate |
| app/customers/page.tsx:53-73 | `handleAddCustomer` catches every failure of the create request and returns normally, so the add-customer form's `await onAdd(formData)` always resolves: the modal closes and the form is blanked, and the form's `catch` (app/components/AddCustomerModal.tsx:118-119) is unreachable | the create request answers 500 (any failure of the create route) for a filled-in form: the modal closes and the typed data is gone, with no message shown | a failed create leaves the modal open with the form as typed, as the form's `catch` and the page's closing only after success suggest | not executed | CustomerForm.SubmitOnPage (with CustomerForm.FailedCreateLosesForm) | CustomerForm.SubmitOnPageCorrected |

=== FILE: customerform.dfy ===
/** The add-customer form: the searchable product and interest pickers, the
    `handleInterestsChange` handler (declared, though no element of the form
    calls it), the primary-reason select with its "Other" text field, and the
    submission with the customers page's `onAdd`, whose create request succeeds
    or fails as an input. */
module CustomerForm {
  import opened Records
  import opened Text
  import Seqs
  import CustomerApi

  function Products(): seq<string> {
    ["CBD Oil", "Hemp-infused Edibles", "Topical Creams", "Hemp Flower", "Hemp Clothing/Textiles", "Hemp-based Supplements"]
  }

  function Interests(): seq<string> {
    ["Alternative Medicine", "Aromatherapy", "Baking with Whole Grains", "Biking", "Bodybuilding",
     "Conservation Efforts", "Cooking New Recipes", "Crafting", "Dancing", "Digital Detoxes",
     "Eco-friendly Practices", "Environmental Activism", "Forest Bathing", "Guided Breathwork",
     "Herbalism", "Hiking", "Holistic Health", "Indoor Rock Climbing", "Journaling", "Martial Arts",
     "Meditation", "Mindfulness Practices", "Music", "Organic Living", "Plant-based Cooking",
     "Positive Affirmations", "Puzzles", "Reading", "Running", "Sauna Use", "Strategy Games",
     "Sustainable Gardening", "Sustainable Living", "Swimming", "Vegan Lifestyle", "Vegetarian Diet", "Yoga"]
  }

  /** The form's state; the two pickers hold arrays of the chosen options. */
  datatype FormData = FormData(
    firstName: string,
    lastName: string,
    email: string,
    phoneNumber: string,
    age: string,
    gender: string,
    preferredProducts: seq<string>,
    primaryReason: string,
    otherReason: string,
    frequencyOfUse: string,
    preferredShoppingMethod: string,
    discoveryMethod: string,
    incomeRange: string,
    occupation: string,
    educationLevel: string,
    preferredCommunication: string,
    interestsHobbies: seq<string>,
    loyaltyProgramMember: bool)

  const BlankForm := FormData("", "", "", "", "", "", [], "", "", "", "", "", "", "", "", "", [], false)

  /** The normalised form the pickers compare: lowercased, whitespace removed. */
  function Squash(s: string): string {
    StripSpaces(Lower(s))
  }

  /** `filteredProducts` and `filteredInterests`: an empty query lists every
      option; otherwise an option is listed when its squashed form contains the
      squashed query. */
  function FilterOptions(options: seq<string>, query: string): (r: seq<string>)
    ensures query == "" ==> r == options
    ensures query != "" ==> forall o :: o in r <==> o in options && Listed(o, query)
    ensures query != "" ==> |r| == Seqs.CountWhere(options, Matches(query))
    ensures Seqs.IsSubsequence(r, options)
  {
    if query == "" then
      assert Seqs.Filter(options, (o: string) => true) == options;
      options
    else
      Seqs.CountWhereIsFilterLength(options, Matches(query));
      Seqs.Filter(options, Matches(query))
  }

  /** An option is listed for a query when its squashed form contains the
      squashed query. */
  predicate Listed(option: string, query: string) {
    Contains(Squash(option), Squash(query))
  }

  function Matches(query: string): string -> bool {
    (o: string) => Listed(o, query)
  }

  /** A query of whitespace only lists every option. */
  lemma BlankQueryListsAll(options: seq<string>, query: string)
    requires forall i :: 0 <= i < |query| ==> IsSpace(query[i])
    ensures FilterOptions(options, query) == options
  {
    if query != "" {
      assert forall i :: 0 <= i < |Lower(query)| ==> IsSpace(Lower(query)[i]);
      StripSpacesOfBlank(Lower(query));
      forall o | o in options
        ensures Listed(o, query)
      {
        ContainsEmpty(Squash(o));
      }
    }
  }

  /** `handleInterestsChange`: checking appends the interest, duplicates included;
      unchecking removes every occurrence of it and keeps the rest in order. The
      form declares this handler but never calls it: the check boxes of the
      interest options do nothing, and the interest picker replaces the whole
      list itself. */
  function HandleInterestsChange(form: FormData, interest: string, checked: bool): (r: FormData)
    ensures checked ==> r.interestsHobbies == form.interestsHobbies + [interest]
    ensures !checked ==> interest !in r.interestsHobbies
    ensures !checked ==> Seqs.IsSubsequence(r.interestsHobbies, form.interestsHobbies)
    ensures !checked ==> forall x :: x in form.interestsHobbies && x != interest ==>
      multiset(r.interestsHobbies)[x] == multiset(form.interestsHobbies)[x]
    ensures r.(interestsHobbies := form.interestsHobbies) == form
  {
    form.(interestsHobbies :=
      if checked then form.interestsHobbies + [interest]
      else Seqs.Filter(form.interestsHobbies, (i: string) => i != interest))
  }

  /** Checking an interest that was not chosen and unchecking it again restores
      the form. */
  lemma CheckThenUncheck(form: FormData, interest: string)
    requires interest !in form.interestsHobbies
    ensures HandleInterestsChange(HandleInterestsChange(form, interest, true), interest, false) == form
  {
    var xs := form.interestsHobbies;
    var keep := (i: string) => i != interest;
    Seqs.FilterAppend(xs, [interest], keep);
    Seqs.FilterSingle(interest, keep);
    assert Seqs.Filter(xs, keep) == xs;
  }

  /** `handlePrimaryReasonChange`: the typed-in reason survives only while "Other"
      is selected. */
  function HandlePrimaryReasonChange(form: FormData, value: string): (r: FormData)
    ensures r.primaryReason == value
    ensures value == CustomerApi.OtherReason ==> r.otherReason == form.otherReason
    ensures value != CustomerApi.OtherReason ==> r.otherReason == ""
    ensures r.(primaryReason := form.primaryReason, otherReason := form.otherReason) == form
  {
    form.(primaryReason := value, otherReason := if value == CustomerApi.OtherReason then form.otherReason else "")
  }

  /** The JSON body the form posts: the form's own fields, the pickers as arrays. */
  function ToRequest(form: FormData): (req: CustomerApi.CreateRequest)
    ensures req.preferredProducts == Items(form.preferredProducts)
    ensures req.interestsHobbies == Items(form.interestsHobbies)
    ensures req.primaryReason == form.primaryReason && req.otherReason == form.otherReason
  {
    CustomerApi.CreateRequest(
      form.firstName, form.lastName, form.email, form.phoneNumber, form.age, form.gender,
      Items(form.preferredProducts), form.primaryReason, form.otherReason, form.frequencyOfUse,
      form.preferredShoppingMethod, form.discoveryMethod, form.incomeRange, form.occupation,
      form.educationLevel, form.preferredCommunication, Items(form.interestsHobbies),
      form.loyaltyProgramMember)
  }

  /** After a reason change, the route stores the typed-in reason exactly when
      "Other" was chosen, and otherwise the chosen reason. */
  lemma ReasonStoredAfterChange(form: FormData, value: string)
    ensures var stored := CustomerApi.PrepareCreate(ToRequest(HandlePrimaryReasonChange(form, value))).fields.primaryReason;
      stored == if value == CustomerApi.OtherReason then form.otherReason else value
  {
  }

  /** The modal as the customers page shows it: open or closed, with its form. */
  datatype Modal = Modal(isOpen: bool, form: FormData)

  /** `handleSubmit`: once `onAdd` resolves the modal closes and the form is
      blanked; when it rejects, the modal and the form stay as they were. */
  function Submit(m: Modal, resolved: bool): (r: Modal)
    ensures resolved ==> !r.isOpen && r.form == BlankForm && r.form.preferredProducts == [] && r.form.interestsHobbies == []
    ensures !resolved ==> r == m
  {
    if resolved then Modal(false, BlankForm) else m
  }

  /** `handleAddCustomer` of the customers page, the form's only `onAdd`: it
      catches every failure of the create request, a non-ok response included,
      so the promise it returns resolves whether or not the customer was created. */
  function PageAdd(created: bool): (resolved: bool)
    ensures resolved
  {
    true
  }

  /** Submitting on the customers page as written: whatever the create request
      does, the modal closes and the form is blanked. */
  function SubmitOnPage(m: Modal, created: bool): (r: Modal)
    ensures !r.isOpen && r.form == BlankForm
  {
    Submit(m, PageAdd(created))
  }

  /** A create that fails still wipes what was typed into the form. */
  lemma FailedCreateLosesForm(m: Modal)
    requires m.form != BlankForm
    ensures SubmitOnPage(m, false).form != m.form
    ensures Submit(m, false).form == m.form
  {
  }

  /** `handleAddCustomer` passing the failure on to the form, as the form's own
      `catch` expects: the promise rejects exactly when the create failed. */
  function PageAddRethrowing(created: bool): (resolved: bool)
    ensures resolved <==> created
  {
    created
  }

  /** Submitting with the failure passed on: a created customer closes and blanks
      the modal, a failed create leaves the modal open with the form as typed. */
  function SubmitOnPageCorrected(m: Modal, created: bool): (r: Modal)
    ensures created ==> !r.isOpen && r.form == BlankForm
    ensures !created ==> r == m
  {
    Submit(m, PageAddRethrowing(created))
  }

  /** Catalog products picked in the form, saved and listed again, come back as picked. */
  lemma PickedProductsRoundTrip(form: FormData)
    requires forall i :: 0 <= i < |form.preferredProducts| ==> form.preferredProducts[i] in Products()
    ensures CustomerApi.ReadList(CustomerApi.PrepareCreate(ToRequest(form)).fields.preferredProducts) == form.preferredProducts
  {
    var xs := form.preferredProducts;
    CatalogStorable();
    assert xs != [""] by {
      if |xs| == 1 {
        assert xs[0] in Products();
      }
    }
    CustomerApi.CreateThenRead(ToRequest(form), xs);
  }

  /** Every catalog product is a non-empty, comma-free, trimmed name. */
  lemma CatalogStorable()
    ensures forall p :: p in Products() ==> StorableName(p)
  {
    var ps := Products();
    forall i | 0 <= i < |ps|
      ensures StorableName(ps[i])
    {
      CommaFree(ps[i]);
    }
  }

  /** A name the store keeps intact inside a comma-joined list. */
  predicate StorableName(p: string) {
    p != "" && ',' !in p && Trimmed(p)
  }

  lemma CommaFree(p: string)
    requires p in Products()
    ensures StorableName(p)
  {
  }
}

=== FILE: customers.dfy ===
/** The customers route: listing normalises the stored `preferredProducts` into an
    array, and creation resolves the "Other" reason and joins the product array
    into one comma-separated string before it is stored. */
module CustomerApi {
  import opened Records
  import opened Text

  /** The separator products are joined with on creation and split on when read. */
  const StoredSeparator := ","

  function TrimAll(xs: seq<string>): (r: seq<string>)
    ensures |r| == |xs|
    ensures forall i :: 0 <= i < |xs| ==> r[i] == Trim(xs[i]) && Trimmed(r[i])
  {
    seq(|xs|, i requires 0 <= i < |xs| => Trim(xs[i]))
  }

  /** The listing's reading of a stored product field: a falsy value (null or the
      empty string) reads as no products, an array as itself, and any other string
      as its comma-separated pieces, each trimmed, in order. */
  function ReadList(f: ListField): (xs: seq<string>)
    ensures f.Missing? || f == Text("") ==> xs == []
    ensures f.Items? ==> xs == f.items
    ensures f.Text? && f.text != "" ==>
      && |xs| == multiset(f.text)[','] + 1 == |Split(f.text, StoredSeparator)|
      && forall i :: 0 <= i < |xs| ==> Trimmed(xs[i]) && xs[i] == Trim(Split(f.text, StoredSeparator)[i])
  {
    match f
    case Missing => []
    case Items(items) => items
    case Text(s) =>
      if s == "" then []
      else
        SplitCountsSeparators(s, ',');
        TrimAll(Split(s, StoredSeparator))
  }

  /** A customer row with its emails, as the listing loads it. */
  datatype CustomerRow = CustomerRow(customer: Customer, emails: seq<Email>)

  /** One row of the listing: only `preferredProducts` is rewritten, into an array. */
  function ReadCustomer(row: CustomerRow): (r: CustomerRow)
    ensures r.customer.preferredProducts == Items(ReadList(row.customer.preferredProducts))
    ensures r.customer.(preferredProducts := row.customer.preferredProducts) == row.customer
    ensures r.emails == row.emails
  {
    row.(customer := row.customer.(preferredProducts := Items(ReadList(row.customer.preferredProducts))))
  }

  /** The listing keeps the store's newest-first order and rewrites each row. */
  function ListCustomers(rows: seq<CustomerRow>): (r: seq<CustomerRow>)
    ensures |r| == |rows|
    ensures forall i :: 0 <= i < |rows| ==> r[i] == ReadCustomer(rows[i])
  {
    seq(|rows|, i requires 0 <= i < |rows| => ReadCustomer(rows[i]))
  }

  /** Reading an already read listing changes nothing. */
  lemma ListingIsStable(rows: seq<CustomerRow>)
    ensures ListCustomers(ListCustomers(rows)) == ListCustomers(rows)
  {
    var once := ListCustomers(rows);
    forall i | 0 <= i < |rows|
      ensures ReadCustomer(once[i]) == once[i]
    {
      assert once[i].customer.(preferredProducts := once[i].customer.preferredProducts) == once[i].customer;
    }
  }

  /** The JSON body of a create request, as the customer form sends it. */
  datatype CreateRequest = CreateRequest(
    firstName: string,
    lastName: string,
    email: string,
    phoneNumber: string,
    age: string,
    gender: string,
    preferredProducts: ListField,
    primaryReason: string,
    otherReason: string,
    frequencyOfUse: string,
    preferredShoppingMethod: string,
    discoveryMethod: string,
    incomeRange: string,
    occupation: string,
    educationLevel: string,
    preferredCommunication: string,
    interestsHobbies: ListField,
    loyaltyProgramMember: bool)

  /** What creation hands to the store: the request with two fields rewritten,
      plus a copy of the shopping method under the name `preferredShopping`. */
  datatype CreateData = CreateData(fields: CreateRequest, preferredShopping: string)

  const OtherReason := "Other"

  /** The reason creation stores: the typed-in reason when "Other" was chosen. */
  function ResolveReason(primaryReason: string, otherReason: string): string {
    if primaryReason == OtherReason then otherReason else primaryReason
  }

  function PrepareCreate(req: CreateRequest): (r: CreateData)
    ensures r.fields.primaryReason == ResolveReason(req.primaryReason, req.otherReason)
    ensures r.fields.primaryReason == OtherReason ==> req.otherReason == OtherReason
    ensures req.preferredProducts.Items? ==> r.fields.preferredProducts == Text(Join(req.preferredProducts.items, StoredSeparator))
    ensures !req.preferredProducts.Items? ==> r.fields.preferredProducts == req.preferredProducts
    ensures r.fields.(primaryReason := req.primaryReason, preferredProducts := req.preferredProducts) == req
    ensures r.preferredShopping == req.preferredShoppingMethod
  {
    var products := match req.preferredProducts
      case Items(xs) => Text(Join(xs, StoredSeparator))
      case other => other;
    CreateData(
      req.(primaryReason := ResolveReason(req.primaryReason, req.otherReason), preferredProducts := products),
      req.preferredShoppingMethod)
  }

  /** A product list the form can produce: no piece holds a comma or surrounding
      whitespace, and the list is not the single empty string. */
  predicate StorableList(xs: seq<string>) {
    && xs != [""]
    && forall i :: 0 <= i < |xs| ==> ',' !in xs[i] && Trimmed(xs[i])
  }

  lemma {:induction false} JoinNonEmpty(xs: seq<string>)
    requires StorableList(xs) && |xs| > 0
    ensures Join(xs, StoredSeparator) != ""
  {
    if |xs| > 1 {
      assert Join(xs, StoredSeparator)[|xs[0]|] == ',';
    } else {
      assert xs[0] != "";
    }
  }

  /** Creating a customer with a storable product array and listing it gives the
      same array back. */
  lemma CreateThenRead(req: CreateRequest, xs: seq<string>)
    requires req.preferredProducts == Items(xs) && StorableList(xs)
    ensures ReadList(PrepareCreate(req).fields.preferredProducts) == xs
  {
    var stored := Join(xs, StoredSeparator);
    if |xs| > 0 {
      JoinNonEmpty(xs);
      forall i | 0 <= i < |xs|
        ensures Separable(xs[i], StoredSeparator)
      {
        SeparableWithoutLead(xs[i], StoredSeparator);
      }
      SplitJoin(xs, StoredSeparator);
      var read := ReadList(Text(stored));
      assert |read| == |xs|;
      forall i | 0 <= i < |xs|
        ensures read[i] == xs[i]
      {
        assert read[i] == Trim(xs[i]);
      }
    }
  }
}

=== FILE: dispatch.dfy ===
/** The send route: every pending email is put through a simulated send and its
    status becomes `sent` or `failed`. The random draw behind each simulated
    send, and the clock reading written to `updatedAt`, are inputs; the parallel
    fan-out is modelled as an order-preserving map. */
module Dispatch {
  import opened Outcomes
  import opened Records
  import Seqs

  /** The share of simulated sends that fail. */
  const FailureRate: real := 0.2

  /** `sendEmail`: the simulated failure is thrown and caught inside, so a send
      reports `false` rather than raising; `draw` is the `Math.random()` value. */
  function SendEmail(draw: real): (delivered: bool)
    ensures delivered <==> draw >= FailureRate
  {
    !(draw < FailureRate)
  }

  predicate IsPending(e: Email) {
    e.status == Pending
  }

  /** The emails the route loads: those whose status is pending, in store order. */
  function PendingEmails(store: seq<Email>): (r: seq<Email>)
    ensures forall e :: e in r ==> e.status == Pending && e in store
    ensures forall e :: e in store && e.status == Pending ==> e in r
    ensures (forall e :: e in store ==> e.status != Pending) ==> r == []
    ensures Seqs.IsSubsequence(r, store)
  {
    Seqs.Filter(store, IsPending)
  }

  /** The update written for one email: its status from the outcome, its
      `updatedAt` from the clock, and nothing else. */
  function Resolve(e: Email, delivered: bool, now: int): (r: Email)
    ensures r.status == (if delivered then Sent else Failed)
    ensures r.updatedAt == now
    ensures r.(status := e.status, updatedAt := e.updatedAt) == e
  {
    e.(status := if delivered then Sent else Failed, updatedAt := now)
  }

  /** The number of emails in `es` with status `s`. */
  function CountStatus(es: seq<Email>, s: Status): nat {
    if |es| == 0 then 0 else (if es[0].status == s then 1 else 0) + CountStatus(es[1..], s)
  }

  lemma {:induction false} CountsPartition(es: seq<Email>)
    ensures CountStatus(es, Pending) + CountStatus(es, Sent) + CountStatus(es, Failed) == |es|
  {
    if |es| > 0 {
      CountsPartition(es[1..]);
    }
  }

  /** The number of draws that let a send through. */
  function Deliveries(draws: seq<real>): nat {
    if |draws| == 0 then 0 else (if SendEmail(draws[0]) then 1 else 0) + Deliveries(draws[1..])
  }

  datatype BatchResult = BatchResult(processed: nat, sent: nat, failed: nat, emails: seq<Email>)

  function ResolveAll(pending: seq<Email>, draws: seq<real>, now: int): (r: seq<Email>)
    requires |draws| == |pending|
    ensures |r| == |pending|
    ensures forall i :: 0 <= i < |r| ==> r[i] == Resolve(pending[i], SendEmail(draws[i]), now)
    ensures CountStatus(r, Pending) == 0
    ensures CountStatus(r, Sent) == Deliveries(draws)
    decreases |pending|
  {
    if |pending| == 0 then []
    else
      var rest := ResolveAll(pending[1..], draws[1..], now);
      var r := [Resolve(pending[0], SendEmail(draws[0]), now)] + rest;
      assert r[1..] == rest;
      r
  }

  /** The send route over the store, with one random draw per pending email. */
  function SendPending(store: seq<Email>, draws: seq<real>, now: int): (r: BatchResult)
    requires |draws| == |PendingEmails(store)|
    ensures r.processed == |r.emails| == |PendingEmails(store)|
    ensures r.sent + r.failed == r.processed
    ensures r.sent == Deliveries(draws)
    ensures forall i :: 0 <= i < |r.emails| ==>
      var p := PendingEmails(store)[i];
      && r.emails[i].status == (if draws[i] >= FailureRate then Sent else Failed)
      && r.emails[i].(status := p.status, updatedAt := p.updatedAt) == p
  {
    var results := ResolveAll(PendingEmails(store), draws, now);
    CountsPartition(results);
    BatchResult(|results|, CountStatus(results, Sent), CountStatus(results, Failed), results)
  }

  /** The store's primary key: no two emails share an id. */
  predicate UniqueIds(store: seq<Email>) {
    forall i, j :: 0 <= i < j < |store| ==> store[i].id != store[j].id
  }

  function FindById(es: seq<Email>, id: nat): (r: Option<Email>)
    ensures r.Some? ==> r.value in es && r.value.id == id
    ensures r.None? ==> forall e :: e in es ==> e.id != id
  {
    if |es| == 0 then None
    else if es[0].id == id then Some(es[0])
    else FindById(es[1..], id)
  }

  /** `prisma.email.update({ where: { id } })` for every result: each email of the
      store takes the update written for its id, if any. */
  function ApplyUpdates(store: seq<Email>, updates: seq<Email>): (r: seq<Email>)
    ensures |r| == |store|
  {
    seq(|store|, i requires 0 <= i < |store| =>
      match FindById(updates, store[i].id)
      case Some(u) => u
      case None => store[i])
  }

  /** After the batch no email of the store is pending; emails that were not
      pending are untouched, and pending ones change only status and `updatedAt`. */
  lemma SendLeavesNothingPending(store: seq<Email>, draws: seq<real>, now: int)
    requires UniqueIds(store) && |draws| == |PendingEmails(store)|
    ensures var after := ApplyUpdates(store, SendPending(store, draws, now).emails);
      && PendingEmails(after) == []
      && (forall i :: 0 <= i < |store| && store[i].status != Pending ==> after[i] == store[i])
      && (forall i :: 0 <= i < |store| && store[i].status == Pending ==>
            after[i].status != Pending && after[i].(status := Pending, updatedAt := store[i].updatedAt) == store[i])
  {
    var pending := PendingEmails(store);
    var updates := SendPending(store, draws, now).emails;
    var after := ApplyUpdates(store, updates);
    forall i | 0 <= i < |store|
      ensures store[i].status != Pending ==> after[i] == store[i]
      ensures store[i].status == Pending ==>
        after[i].status != Pending && after[i].(status := Pending, updatedAt := store[i].updatedAt) == store[i]
    {
      UpdateFor(store, pending, updates, draws, now, i);
    }
  }

  /** The update `ApplyUpdates` picks for email `i` of the store. */
  lemma UpdateFor(store: seq<Email>, pending: seq<Email>, updates: seq<Email>, draws: seq<real>, now: int, i: int)
    requires UniqueIds(store) && pending == PendingEmails(store) && |draws| == |pending|
    requires updates == SendPending(store, draws, now).emails
    requires 0 <= i < |store|
    ensures store[i].status != Pending ==> ApplyUpdates(store, updates)[i] == store[i]
    ensures store[i].status == Pending ==>
      var u := ApplyUpdates(store, updates)[i];
      u.status != Pending && u.(status := Pending, updatedAt := store[i].updatedAt) == store[i]
  {
    PendingHasUpdate(store, pending, updates, draws, now, i);
    var found := FindById(updates, store[i].id);
    if found.Some? {
      var k :| 0 <= k < |updates| && updates[k] == found.value;
      var p := pending[k];
      assert p in store;
      var j :| 0 <= j < |store| && store[j] == p;
      assert store[j].id == store[i].id;
      assert j == i;
      assert updates[k].(status := p.status, updatedAt := p.updatedAt) == p;
    }
  }

  /** Every pending email of the store has an update written for its id. */
  lemma PendingHasUpdate(store: seq<Email>, pending: seq<Email>, updates: seq<Email>, draws: seq<real>, now: int, i: int)
    requires pending == PendingEmails(store) && |draws| == |pending|
    requires updates == SendPending(store, draws, now).emails
    requires 0 <= i < |store|
    ensures store[i].status == Pending ==> FindById(updates, store[i].id).Some?
  {
    if store[i].status == Pending {
      assert store[i] in pending;
      var k :| 0 <= k < |pending| && pending[k] == store[i];
      assert updates[k] in updates && updates[k].id == store[i].id;
    }
  }
}

=== FILE: emailtable.dfy ===
/** The email management page: the rows of the fetched page are filtered by
    status and by a search text, then sorted by the clicked column; the sort
    state toggles between ascending and descending, and the header figures are
    computed from the fetched rows. `localeCompare` is modelled as ordinal
    comparison and dates as integer timestamps. */
module EmailTable {
  import opened Records
  import opened Text
  import Seqs
  import Numbers
  import EmailPages

  type Row = EmailPages.ListedEmail

  datatype StatusFilter = AllStatuses | Only(status: Status)
  datatype SortBy = ByDate | ByCustomer | BySubject
  datatype Direction = Asc | Desc

  /** The filter panel's state; `sortBy` and `sortOrder` are set by the panel but
      read by nothing. */
  datatype Filters = Filters(status: StatusFilter, search: string, sortBy: SortBy, sortOrder: Direction)

  const InitialFilters := Filters(AllStatuses, "", ByDate, Desc)

  datatype SortKey = CustomerKey | SubjectKey | StatusKey | CreatedAtKey
  datatype SortConfig = SortConfig(key: SortKey, direction: Direction)

  const InitialSort := SortConfig(CreatedAtKey, Desc)

  // ---------------------------------------------------------------- sort state

  /** `handleSort`: the clicked column becomes the key; the direction flips to
      descending only when the same column was ascending. */
  function HandleSort(current: SortConfig, key: SortKey): (r: SortConfig)
    ensures r.key == key
    ensures key != current.key ==> r.direction == Asc
    ensures key == current.key ==> r.direction != current.direction
  {
    SortConfig(key, if current.key == key && current.direction == Asc then Desc else Asc)
  }

  /** Clicking the same column twice returns to the direction it started from, and
      clicking a new column twice sorts it descending. */
  lemma HandleSortTwice(current: SortConfig, key: SortKey)
    ensures key == current.key ==> HandleSort(HandleSort(current, key), key) == current
    ensures key != current.key ==> HandleSort(HandleSort(current, key), key) == SortConfig(key, Desc)
  {
  }

  // ---------------------------------------------------------------- comparison

  /** Ordinal comparison of two strings: -1, 0 or 1. */
  function StrCmp(a: string, b: string): (c: int)
    ensures -1 <= c <= 1
    decreases |a|
  {
    if |a| == 0 && |b| == 0 then 0
    else if |a| == 0 then -1
    else if |b| == 0 then 1
    else if a[0] < b[0] then -1
    else if a[0] > b[0] then 1
    else StrCmp(a[1..], b[1..])
  }

  lemma {:induction false} StrCmpZero(a: string, b: string)
    ensures StrCmp(a, b) == 0 <==> a == b
    decreases |a|
  {
    if |a| > 0 && |b| > 0 && a[0] == b[0] {
      StrCmpZero(a[1..], b[1..]);
      assert a == [a[0]] + a[1..] && b == [b[0]] + b[1..];
    }
  }

  lemma {:induction false} StrCmpAntisymmetric(a: string, b: string)
    ensures StrCmp(a, b) == -StrCmp(b, a)
    decreases |a|
  {
    if |a| > 0 && |b| > 0 && a[0] == b[0] {
      StrCmpAntisymmetric(a[1..], b[1..]);
    }
  }

  lemma {:induction false} StrCmpTransitive(a: string, b: string, c: string)
    ensures StrCmp(a, b) <= 0 && StrCmp(b, c) <= 0 ==> StrCmp(a, c) <= 0
    decreases |a|
  {
    if |a| > 0 && |b| > 0 && |c| > 0 && a[0] == b[0] && b[0] == c[0] {
      StrCmpTransitive(a[1..], b[1..], c[1..]);
    }
  }

  function CustomerName(r: Row): string {
    r.firstName + " " + r.lastName
  }

  /** The comparator for one column, before the direction is applied. */
  function Compare(key: SortKey, a: Row, b: Row): int {
    match key
    case CustomerKey => StrCmp(CustomerName(a), CustomerName(b))
    case SubjectKey => StrCmp(a.email.subject, b.email.subject)
    case StatusKey => StrCmp(StatusName(a.email.status), StatusName(b.email.status))
    case CreatedAtKey => a.email.createdAt - b.email.createdAt
  }

  /** The comparator handed to `sort`: negated for a descending sort. */
  function Directed(cfg: SortConfig, a: Row, b: Row): int {
    if cfg.direction == Asc then Compare(cfg.key, a, b) else -Compare(cfg.key, a, b)
  }

  /** `a` may come before `b`. */
  predicate Leq(cfg: SortConfig, a: Row, b: Row) {
    Directed(cfg, a, b) <= 0
  }

  /** `a` and `b` compare equal: their relative order is kept. */
  predicate SameRank(cfg: SortConfig, a: Row, b: Row) {
    Directed(cfg, a, b) == 0
  }

  lemma CompareAntisymmetric(key: SortKey, a: Row, b: Row)
    ensures Compare(key, a, b) == -Compare(key, b, a)
  {
    match key
    case CustomerKey => StrCmpAntisymmetric(CustomerName(a), CustomerName(b));
    case SubjectKey => StrCmpAntisymmetric(a.email.subject, b.email.subject);
    case StatusKey => StrCmpAntisymmetric(StatusName(a.email.status), StatusName(b.email.status));
    case CreatedAtKey =>
  }

  lemma CompareTransitive(key: SortKey, a: Row, b: Row, c: Row)
    ensures Compare(key, a, b) <= 0 && Compare(key, b, c) <= 0 ==> Compare(key, a, c) <= 0
  {
    match key
    case CustomerKey => StrCmpTransitive(CustomerName(a), CustomerName(b), CustomerName(c));
    case SubjectKey => StrCmpTransitive(a.email.subject, b.email.subject, c.email.subject);
    case StatusKey => StrCmpTransitive(StatusName(a.email.status), StatusName(b.email.status), StatusName(c.email.status));
    case CreatedAtKey =>
  }

  /** The directed comparator is a total preorder: any two rows are ordered one way
      or the other, and the order is transitive. */
  lemma LeqTotal(cfg: SortConfig, a: Row, b: Row)
    ensures Directed(cfg, a, b) == -Directed(cfg, b, a)
    ensures Leq(cfg, a, b) || Leq(cfg, b, a)
  {
    CompareAntisymmetric(cfg.key, a, b);
  }

  lemma LeqTransitive(cfg: SortConfig, a: Row, b: Row, c: Row)
    ensures Leq(cfg, a, b) && Leq(cfg, b, c) ==> Leq(cfg, a, c)
  {
    if cfg.direction == Asc {
      CompareTransitive(cfg.key, a, b, c);
    } else {
      CompareAntisymmetric(cfg.key, a, b);
      CompareAntisymmetric(cfg.key, b, c);
      CompareAntisymmetric(cfg.key, a, c);
      CompareTransitive(cfg.key, c, b, a);
    }
  }

  // ---------------------------------------------------------------- stable sort

  /** Every row may come before every later row. */
  predicate Sorted(cfg: SortConfig, s: seq<Row>) {
    forall i, j :: 0 <= i < j < |s| ==> Leq(cfg, s[i], s[j])
  }

  /** Places `x` before the first row that must come after it. */
  function Insert(cfg: SortConfig, x: Row, s: seq<Row>): (r: seq<Row>)
    requires Sorted(cfg, s)
    ensures multiset(r) == multiset(s) + multiset{x}
    ensures Sorted(cfg, r)
  {
    if |s| == 0 then [x]
    else if Directed(cfg, s[0], x) > 0 then
      LeqTotal(cfg, s[0], x);
      forall j | 0 <= j < |s|
        ensures Leq(cfg, x, s[j])
      {
        LeqTransitive(cfg, x, s[0], s[j]);
      }
      SortedCons(cfg, x, s);
      [x] + s
    else
      var rest := Insert(cfg, x, s[1..]);
      assert s == [s[0]] + s[1..];
      forall j | 0 <= j < |rest|
        ensures Leq(cfg, s[0], rest[j])
      {
        assert rest[j] in multiset(rest);
      }
      SortedCons(cfg, s[0], rest);
      [s[0]] + rest
  }

  /** A row that may come before every row of a sorted sequence may head it. */
  lemma SortedCons(cfg: SortConfig, x: Row, s: seq<Row>)
    requires Sorted(cfg, s) && forall j :: 0 <= j < |s| ==> Leq(cfg, x, s[j])
    ensures Sorted(cfg, [x] + s)
  {
    var r := [x] + s;
    forall i, j | 0 <= i < j < |r|
      ensures Leq(cfg, r[i], r[j])
    {
      assert r[j] == s[j - 1];
      if i > 0 {
        assert r[i] == s[i - 1];
      }
    }
  }

  /** The stable sort of `s`: rows are inserted one by one in input order. */
  function SortRows(cfg: SortConfig, s: seq<Row>): (r: seq<Row>)
    ensures multiset(r) == multiset(s)
    ensures Sorted(cfg, r)
  {
    if |s| == 0 then []
    else
      assert s == s[..|s| - 1] + [s[|s| - 1]];
      Insert(cfg, s[|s| - 1], SortRows(cfg, s[..|s| - 1]))
  }

  /** The rows of the same rank as `y`. */
  function RankOf(cfg: SortConfig, y: Row): Row -> bool {
    e => SameRank(cfg, e, y)
  }

  /** Rows after the insertion point rank strictly after `x`, so `x` joins its rank
      class as its last member. */
  lemma {:induction false} InsertKeepsRankOrder(cfg: SortConfig, x: Row, s: seq<Row>, y: Row)
    requires Sorted(cfg, s)
    ensures Seqs.Filter(Insert(cfg, x, s), RankOf(cfg, y))
      == Seqs.Filter(s, RankOf(cfg, y)) + (if SameRank(cfg, x, y) then [x] else [])
  {
    var rank := RankOf(cfg, y);
    var tail := if SameRank(cfg, x, y) then [x] else [];
    if |s| == 0 {
      assert rank(x) == SameRank(cfg, x, y);
      assert Insert(cfg, x, s) == [x];
      Seqs.FilterSingle(x, rank);
      assert Seqs.Filter(Insert(cfg, x, s), rank) == Seqs.Filter(s, rank) + tail;
    } else if Directed(cfg, s[0], x) > 0 {
      InsertInFront(cfg, x, s, y);
      assert Seqs.Filter(Insert(cfg, x, s), rank) == Seqs.Filter(s, rank) + tail;
    } else {
      var rest := Insert(cfg, x, s[1..]);
      assert Insert(cfg, x, s) == [s[0]] + rest;
      assert s == [s[0]] + s[1..];
      InsertKeepsRankOrder(cfg, x, s[1..], y);
      Seqs.FilterAppend([s[0]], rest, rank);
      Seqs.FilterAppend([s[0]], s[1..], rank);
      var head := Seqs.Filter([s[0]], rank);
      assert Seqs.Filter(Insert(cfg, x, s), rank) == head + (Seqs.Filter(s[1..], rank) + tail);
      var middle := Seqs.Filter(s[1..], rank);
      assert Seqs.Filter(s, rank) == head + middle;
      Seqs.AppendAssociative(head, middle, tail);
    }
  }

  /** When `x` goes in front, no row of `s` shares its rank. */
  lemma InsertInFront(cfg: SortConfig, x: Row, s: seq<Row>, y: Row)
    requires Sorted(cfg, s) && |s| > 0 && Directed(cfg, s[0], x) > 0
    ensures Seqs.Filter(Insert(cfg, x, s), RankOf(cfg, y))
      == Seqs.Filter(s, RankOf(cfg, y)) + (if SameRank(cfg, x, y) then [x] else [])
  {
    var rank := RankOf(cfg, y);
    assert rank(x) == SameRank(cfg, x, y);
    assert Insert(cfg, x, s) == [x] + s;
    Seqs.FilterAppend([x], s, rank);
    Seqs.FilterSingle(x, rank);
    if SameRank(cfg, x, y) {
      forall j | 0 <= j < |s|
        ensures !rank(s[j])
      {
        RankedAfter(cfg, s[0], x, s[j], y);
      }
      NoneOfRank(s, rank);
    }
  }

  /** A row no earlier than one that ranks strictly after `x` cannot share the
      rank of `x`. */
  lemma RankedAfter(cfg: SortConfig, first: Row, x: Row, later: Row, y: Row)
    requires (first == later || Leq(cfg, first, later)) && Directed(cfg, first, x) > 0 && SameRank(cfg, x, y)
    ensures !SameRank(cfg, later, y)
  {
    LeqTotal(cfg, first, later);
    LeqTotal(cfg, x, y);
    LeqTransitive(cfg, later, y, x);
    LeqTransitive(cfg, first, later, x);
  }

  lemma NoneOfRank(s: seq<Row>, rank: Row -> bool)
    requires forall j :: 0 <= j < |s| ==> !rank(s[j])
    ensures Seqs.Filter(s, rank) == []
  {
  }

  /** Stability: within every rank, the sorted rows appear in their input order. */
  lemma {:induction false} SortIsStable(cfg: SortConfig, s: seq<Row>, y: Row)
    ensures Seqs.Filter(SortRows(cfg, s), RankOf(cfg, y)) == Seqs.Filter(s, RankOf(cfg, y))
    decreases |s|
  {
    if |s| > 0 {
      var init := s[..|s| - 1];
      var last := s[|s| - 1];
      assert s == init + [last];
      var rank := RankOf(cfg, y);
      var tail := if SameRank(cfg, last, y) then [last] else [];
      SortIsStable(cfg, init, y);
      assert SortRows(cfg, s) == Insert(cfg, last, SortRows(cfg, init));
      InsertKeepsRankOrder(cfg, last, SortRows(cfg, init), y);
      assert Seqs.Filter(SortRows(cfg, s), rank) == Seqs.Filter(init, rank) + tail;
      Seqs.FilterSingle(last, rank);
      assert rank(last) == SameRank(cfg, last, y);
      Seqs.FilterAppend(init, [last], rank);
    }
  }

  // ---------------------------------------------------------------- filters

  predicate MatchesStatus(f: StatusFilter, r: Row) {
    f.AllStatuses? || r.email.status == f.status
  }

  /** An empty search matches every row; otherwise the lowercased search must occur
      in the lowercased first name, last name or subject. */
  predicate MatchesSearch(search: string, r: Row) {
    || search == ""
    || Contains(Lower(r.firstName), Lower(search))
    || Contains(Lower(r.lastName), Lower(search))
    || Contains(Lower(r.email.subject), Lower(search))
  }

  /** The rows the table shows for these filters. */
  function Shown(f: Filters): Row -> bool {
    r => MatchesStatus(f.status, r) && MatchesSearch(f.search, r)
  }

  /** `applyFilters`: the status filter, then the search filter (each skipped when
      it is 'all' or empty), then the stable sort. */
  function ApplyFilters(rows: seq<Row>, f: Filters, cfg: SortConfig): (r: seq<Row>)
    ensures r == SortRows(cfg, Seqs.Filter(rows, Shown(f)))
    ensures forall x :: x in r <==> x in rows && MatchesStatus(f.status, x) && MatchesSearch(f.search, x)
  {
    var byStatus := if f.status.AllStatuses? then rows else Seqs.Filter(rows, (e: Row) => MatchesStatus(f.status, e));
    var bySearch := if f.search == "" then byStatus else Seqs.Filter(byStatus, (e: Row) => MatchesSearch(f.search, e));
    FiltersCompose(rows, f);
    var r := SortRows(cfg, bySearch);
    SameElements(r, Seqs.Filter(rows, Shown(f)));
    r
  }

  /** Sequences with the same multiset have the same elements. */
  lemma SameElements(a: seq<Row>, b: seq<Row>)
    requires multiset(a) == multiset(b)
    ensures forall x :: x in a <==> x in b
  {
    forall x
      ensures x in a <==> x in b
    {
      assert x in a <==> x in multiset(a);
      assert x in b <==> x in multiset(b);
    }
  }

  lemma FiltersCompose(rows: seq<Row>, f: Filters)
    ensures var byStatus := if f.status.AllStatuses? then rows else Seqs.Filter(rows, (e: Row) => MatchesStatus(f.status, e));
      (if f.search == "" then byStatus else Seqs.Filter(byStatus, (e: Row) => MatchesSearch(f.search, e)))
        == Seqs.Filter(rows, Shown(f))
  {
    var st := (e: Row) => MatchesStatus(f.status, e);
    var se := (e: Row) => MatchesSearch(f.search, e);
    var byStatus := if f.status.AllStatuses? then rows else Seqs.Filter(rows, st);
    if f.search == "" {
      if f.status.AllStatuses? {
        assert Seqs.Filter(rows, Shown(f)) == rows;
      } else {
        Seqs.FilterSame(rows, st, Shown(f));
      }
    } else {
      if f.status.AllStatuses? {
        Seqs.FilterSame(rows, se, Shown(f));
      } else {
        Seqs.FilterTwice(rows, st, se);
        Seqs.FilterSame(rows, Seqs.Both(st, se), Shown(f));
      }
    }
  }

  /** The table's rows do not depend on the panel's `sortBy` and `sortOrder`. */
  lemma SortPanelIgnored(rows: seq<Row>, f: Filters, g: Filters, cfg: SortConfig)
    requires f.status == g.status && f.search == g.search
    ensures ApplyFilters(rows, f, cfg) == ApplyFilters(rows, g, cfg)
  {
    Seqs.FilterSame(rows, Shown(f), Shown(g));
  }

  // ---------------------------------------------------------------- paging and figures

  /** The page the table asks the listing route for. */
  datatype PageState = PageState(currentPage: int, pageSize: int)

  /** `handlePageSizeChange`: the new size, back on the first page. */
  function PageSizeChange(state: PageState, size: int): (r: PageState)
    ensures r.pageSize == size && r.currentPage == 1
    ensures EmailPages.Skip(r.currentPage, r.pageSize) == 0
  {
    PageState(1, size)
  }

  /** The "Pending" figure: pending rows among the fetched page. */
  function PendingCount(rows: seq<Row>): (n: nat)
    ensures n <= |rows|
    ensures n == |Seqs.Filter(rows, (r: Row) => r.email.status == Pending)|
  {
    Seqs.CountWhereIsFilterLength(rows, (r: Row) => r.email.status == Pending);
    Seqs.CountWhere(rows, (r: Row) => r.email.status == Pending)
  }

  function SentCount(rows: seq<Row>): nat {
    Seqs.CountWhere(rows, (r: Row) => r.email.status == Sent)
  }

  /** The "Success Rate" figure as written: sent rows of the fetched page over the
      total number of emails in the store, in percent, rounded half up. */
  function ShownSuccessRate(page: seq<Row>, total: nat): (r: int)
    ensures total == 0 ==> r == 0
    ensures total > 0 ==> (r as real) - 0.5 <= (SentCount(page) * 100) as real / total as real < (r as real) + 0.5
    ensures SentCount(page) <= total ==> 0 <= r <= 100
  {
    if total == 0 then 0
    else
      Numbers.PercentWithin(SentCount(page), total);
      Numbers.RoundHalfUp(SentCount(page) * 100, total)
  }

  /** The success rate over every email of the store. */
  function SuccessRate(all: seq<Row>): (r: int)
    ensures |all| == 0 ==> r == 0
    ensures 0 <= r <= 100
    ensures |all| > 0 ==> (r as real) - 0.5 <= (SentCount(all) * 100) as real / |all| as real < (r as real) + 0.5
  {
    ShownSuccessRate(all, |all|)
  }

  /** `n` sent emails. */
  function AllSent(n: nat, createdAt: int): (rows: seq<Row>)
    ensures |rows| == n
    ensures forall i :: 0 <= i < n ==> rows[i].email.status == Sent
  {
    seq(n, i requires 0 <= i < n =>
      EmailPages.ListedEmail(Email(i, i, Outcomes.None, "", "", Sent, createdAt, createdAt), "", ""))
  }

  lemma {:induction false} SentCountOfSent(rows: seq<Row>)
    requires forall i :: 0 <= i < |rows| ==> rows[i].email.status == Sent
    ensures SentCount(rows) == |rows|
  {
    if |rows| > 0 {
      SentCountOfSent(rows[1..]);
    }
  }

  /** With twenty emails, all of them sent, and the first page of ten fetched, the
      figure shows 50 although every email was sent. */
  lemma PageRateUnderstates()
    ensures var all := AllSent(20, 0);
      && SuccessRate(all) == 100
      && ShownSuccessRate(all[..10], |all|) == 50
  {
    var all := AllSent(20, 0);
    SentCountOfSent(all);
    SentCountOfSent(all[..10]);
  }
}

=== FILE: generate.dfy ===
/** The generate route: every customer without any email receives one email
    rendered from the requested template. Bodies are rendered over the customer's
    product and interest lists after they have been parsed; what `JSON.parse`
    yields is an input, one outcome per selected customer. */
module Generation {
  import opened Outcomes
  import opened Records
  import opened Text
  import Seqs

  const Welcome := "welcome"
  const FollowUp := "followup"
  const Promotion := "promotion"

  /** The separator the rendered lists are joined with. */
  const ListSeparator := ", "

  predicate KnownTemplate(template: string) {
    template == Welcome || template == FollowUp || template == Promotion
  }

  /** `getEmailSubject`: one subject per template; anything unrecognised falls back
      to the welcome subject. */
  function Subject(template: string, firstName: string): (r: string)
    ensures template == FollowUp ==> r == "How's your hemp journey going, " + firstName + "?"
    ensures template == Promotion ==> r == "Special Offer for " + firstName + " - Hempdash"
    ensures template != FollowUp && template != Promotion ==> r == "Welcome to Hempdash, " + firstName + "!"
  {
    if template == FollowUp then "How's your hemp journey going, " + firstName + "?"
    else if template == Promotion then "Special Offer for " + firstName + " - Hempdash"
    else "Welcome to Hempdash, " + firstName + "!"
  }

  /** An unrecognised template gets exactly the welcome subject. */
  lemma UnknownTemplateSubject(template: string, firstName: string)
    requires !KnownTemplate(template)
    ensures Subject(template, firstName) == Subject(Welcome, firstName)
  {
  }

  /** Every subject names the customer. */
  lemma SubjectNamesCustomer(template: string, firstName: string)
    ensures Contains(Subject(template, firstName), firstName)
  {
    if template == FollowUp {
      ContainsInfix("How's your hemp journey going, ", firstName, "?");
    } else if template == Promotion {
      ContainsInfix("Special Offer for ", firstName, " - Hempdash");
    } else {
      ContainsInfix("Welcome to Hempdash, ", firstName, "!");
    }
  }

  lemma TemplatesDiffer()
    ensures Welcome != FollowUp && Welcome != Promotion && FollowUp != Promotion
  {
    assert |Welcome| == 7 && |FollowUp| == 8 && |Promotion| == 9;
  }

  /** The three recognised templates give three different subjects for any name. */
  lemma SubjectsDistinct(firstName: string)
    ensures Subject(Welcome, firstName) != Subject(FollowUp, firstName)
    ensures Subject(FollowUp, firstName) != Subject(Promotion, firstName)
    ensures Subject(Welcome, firstName) != Subject(Promotion, firstName)
  {
    assert Subject(Welcome, firstName)[0] == 'W';
    assert Subject(FollowUp, firstName)[0] == 'H';
    assert Subject(Promotion, firstName)[0] == 'S';
  }

  /** The fixed text of the bodies: `Opening` and `Closing` are the markup every
      body shares (the container and heading tag, and the signature); the others
      are the text between the interpolated values of each template, numbered in
      order. The bodies are rendered over a wording `w` of the passages, so what is
      proved of them holds whatever the text; `Wording` is the route's own text and
      `Route` renders with it. */
  datatype Passage =
    | Opening
    | Closing
    | WelcomeText1
    | WelcomeText2
    | WelcomeText3
    | WelcomeText4
    | FollowUpText1
    | FollowUpText2
    | FollowUpText3
    | FollowUpText4
    | PromotionText1
    | PromotionText2
    | PromotionText3
    | PromotionText4
    | DefaultText1
    | DefaultText2

  function Wording(p: Passage): string {
    match p
    case Opening => "\n        <div style=\"font-family: Arial, sans-serif; max-width: 600px; margin: 0 auto;\">\n          <h1 style=\"color: #2F855A;\">"
    case Closing => "\n          <p>Best regards,<br>The Hempdash Team</p>\n        </div>\n      "
    case WelcomeText1 => "Welcome to Hempdash, "
    case WelcomeText2 => "!</h1>\n          <p>We're excited to have you join our community of hemp enthusiasts. Based on your preferences, we think you'll love our "
    case WelcomeText3 => " products.</p>\n          <p>Your interests in "
    case WelcomeText4 => " align perfectly with our product offerings.</p>\n          <p>As a valued customer, you'll receive:</p>\n          <ul>\n            <li>Exclusive product updates</li>\n            <li>Special member discounts</li>\n            <li>Educational content about hemp</li>\n          </ul>\n          <p>Ready to explore our products? Visit our website to get started!</p>"
    case FollowUpText1 => "How's Your Hemp Journey Going?</h1>\n          <p>Hi "
    case FollowUpText2 => ",</p>\n          <p>We noticed you're interested in "
    case FollowUpText3 => ". We'd love to hear about your experience with our products.</p>\n          <p>Here are some products you might like based on your preferences:</p>\n          <ul>\n            "
    case FollowUpText4 => "\n          </ul>\n          <p>Let us know if you need any assistance!</p>"
    case PromotionText1 => "Special Offer Just for You!</h1>\n          <p>Hi "
    case PromotionText2 => ",</p>\n          <p>We've noticed your interest in "
    case PromotionText3 => " and wanted to offer you a special discount on our "
    case PromotionText4 => " products.</p>\n          <p>Use code WELCOME10 for 10% off your first purchase!</p>\n          <p>This offer is exclusive to you and expires in 7 days.</p>\n          <p>Happy shopping!</p>"
    case DefaultText1 => "Welcome to Hempdash!</h1>\n          <p>Hi "
    case DefaultText2 => ",</p>\n          <p>Thank you for joining our community. We're excited to have you on board!</p>"
  }

  /** `products.map(p => `<li>${p}</li>`).join('')`. */
  function ListItems(products: seq<string>): (r: string)
    ensures |products| == 0 ==> r == ""
  {
    if |products| == 0 then "" else "<li>" + products[0] + "</li>" + ListItems(products[1..])
  }

  /** Rendering a concatenation of lists concatenates the renderings. */
  lemma {:induction false} ListItemsAppend(xs: seq<string>, ys: seq<string>)
    ensures ListItems(xs + ys) == ListItems(xs) + ListItems(ys)
    decreases |xs|
  {
    if |xs| > 0 {
      assert (xs + ys)[1..] == xs[1..] + ys;
      ListItemsAppend(xs[1..], ys);
      var item := "<li>" + xs[0] + "</li>";
      calc {
        ListItems(xs + ys);
        item + ListItems(xs[1..] + ys);
        item + (ListItems(xs[1..]) + ListItems(ys));
        (item + ListItems(xs[1..])) + ListItems(ys);
      }
    } else {
      assert xs + ys == ys;
    }
  }

  /** Every product gets its own list item, in order. */
  lemma {:induction false} ListItemsHoldEachProduct(products: seq<string>, i: int)
    requires 0 <= i < |products|
    ensures Contains(ListItems(products), "<li>" + products[i] + "</li>")
  {
    var before := products[..i];
    var after := products[i + 1..];
    assert products == before + [products[i]] + after;
    ListItemsAppend(before + [products[i]], after);
    ListItemsAppend(before, [products[i]]);
    var item := "<li>" + products[i] + "</li>";
    assert ListItems([products[i]]) == item + ListItems([]);
    assert ListItems([products[i]]) == item;
    assert ListItems(products) == ListItems(before) + item + ListItems(after);
    ContainsInfix(ListItems(before), item, ListItems(after));
  }

  function WelcomeBody(w: Passage -> string, firstName: string, products: seq<string>, interests: seq<string>): string {
    (w(Opening) + w(WelcomeText1) + firstName + w(WelcomeText2)) + Join(products, ListSeparator)
      + (w(WelcomeText3) + Join(interests, ListSeparator) + (w(WelcomeText4) + w(Closing)))
  }

  function FollowUpBody(w: Passage -> string, firstName: string, products: seq<string>, interests: seq<string>): string {
    (w(Opening) + w(FollowUpText1) + firstName + w(FollowUpText2)) + Join(interests, ListSeparator)
      + (w(FollowUpText3) + ListItems(products) + (w(FollowUpText4) + w(Closing)))
  }

  function PromotionBody(w: Passage -> string, firstName: string, products: seq<string>, interests: seq<string>): string {
    (w(Opening) + w(PromotionText1) + firstName + w(PromotionText2)) + Join(interests, ListSeparator)
      + (w(PromotionText3) + Join(products, ListSeparator) + (w(PromotionText4) + w(Closing)))
  }

  /** A body written as `a + b + (c + d + e)` contains `d` as well as `b`. */
  lemma ContainsFourth(a: string, b: string, c: string, d: string, e: string)
    ensures Contains(a + b + (c + d + e), d)
  {
    assert a + b + (c + d + e) == (a + b + c) + d + e;
    ContainsInfix(a + b + c, d, e);
  }

  function DefaultBody(w: Passage -> string, firstName: string): string {
    w(Opening) + w(DefaultText1) + firstName + w(DefaultText2) + w(Closing)
  }

  /** `generateEmailBody` over already parsed lists. */
  function Body(w: Passage -> string, template: string, firstName: string, products: seq<string>, interests: seq<string>): (r: string)
    ensures template == Welcome ==> r == WelcomeBody(w, firstName, products, interests)
    ensures template == FollowUp ==> r == FollowUpBody(w, firstName, products, interests)
    ensures template == Promotion ==> r == PromotionBody(w, firstName, products, interests)
    ensures !KnownTemplate(template) ==> r == DefaultBody(w, firstName)
  {
    if template == Welcome then WelcomeBody(w, firstName, products, interests)
    else if template == FollowUp then FollowUpBody(w, firstName, products, interests)
    else if template == Promotion then PromotionBody(w, firstName, products, interests)
    else DefaultBody(w, firstName)
  }

  /** The welcome and promotion bodies name the products and the interests, each
      list joined with ", ". */
  lemma BodiesNameLists(w: Passage -> string, firstName: string, products: seq<string>, interests: seq<string>)
    ensures Contains(Body(w, Welcome, firstName, products, interests), Join(products, ListSeparator))
    ensures Contains(Body(w, Welcome, firstName, products, interests), Join(interests, ListSeparator))
    ensures Contains(Body(w, Promotion, firstName, products, interests), Join(products, ListSeparator))
    ensures Contains(Body(w, Promotion, firstName, products, interests), Join(interests, ListSeparator))
  {
    TemplatesDiffer();
    WelcomeNamesLists(w, firstName, products, interests);
    PromotionNamesLists(w, firstName, products, interests);
  }

  lemma WelcomeNamesLists(w: Passage -> string, firstName: string, products: seq<string>, interests: seq<string>)
    ensures Contains(WelcomeBody(w, firstName, products, interests), Join(products, ListSeparator))
    ensures Contains(WelcomeBody(w, firstName, products, interests), Join(interests, ListSeparator))
  {
    var head := w(Opening) + w(WelcomeText1) + firstName + w(WelcomeText2);
    NamesBoth(head, Join(products, ListSeparator), w(WelcomeText3), Join(interests, ListSeparator), w(WelcomeText4) + w(Closing));
  }

  lemma PromotionNamesLists(w: Passage -> string, firstName: string, products: seq<string>, interests: seq<string>)
    ensures Contains(PromotionBody(w, firstName, products, interests), Join(products, ListSeparator))
    ensures Contains(PromotionBody(w, firstName, products, interests), Join(interests, ListSeparator))
  {
    var head := w(Opening) + w(PromotionText1) + firstName + w(PromotionText2);
    NamesBoth(head, Join(interests, ListSeparator), w(PromotionText3), Join(products, ListSeparator), w(PromotionText4) + w(Closing));
  }

  /** A body written as `a + b + (c + d + e)` contains both `b` and `d`. */
  lemma NamesBoth(a: string, b: string, c: string, d: string, e: string)
    ensures Contains(a + b + (c + d + e), b)
    ensures Contains(a + b + (c + d + e), d)
  {
    ContainsInfix(a, b, c + d + e);
    ContainsFourth(a, b, c, d, e);
  }

  /** The follow-up body names the interests and lists every product as its own item. */
  lemma FollowUpListsProducts(w: Passage -> string, firstName: string, products: seq<string>, interests: seq<string>, i: int)
    requires 0 <= i < |products|
    ensures Contains(Body(w, FollowUp, firstName, products, interests), Join(interests, ListSeparator))
    ensures Contains(Body(w, FollowUp, firstName, products, interests), "<li>" + products[i] + "</li>")
  {
    TemplatesDiffer();
    ListItemsHoldEachProduct(products, i);
    var head := w(Opening) + w(FollowUpText1) + firstName + w(FollowUpText2);
    NamesBothNested(head, Join(interests, ListSeparator), w(FollowUpText3), ListItems(products),
      w(FollowUpText4) + w(Closing), "<li>" + products[i] + "</li>");
  }

  /** A body written as `a + b + (c + d + e)` contains `b`, and whatever `d` contains. */
  lemma NamesBothNested(a: string, b: string, c: string, d: string, e: string, sub: string)
    requires Contains(d, sub)
    ensures Contains(a + b + (c + d + e), b)
    ensures Contains(a + b + (c + d + e), sub)
  {
    ContainsInfix(a, b, c + d + e);
    ContainsInOuter(d, sub, a + b + c, e);
    Seqs.AppendAssociative(a + b, c + d, e);
    Seqs.AppendAssociative(a + b, c, d);
    Seqs.AppendAssociative(a, b, c);
  }

  /** Text contained in the middle of a string is contained in the whole. */
  lemma ContainsInOuter(mid: string, sub: string, a: string, b: string)
    requires Contains(mid, sub)
    ensures Contains(a + mid + b, sub)
  {
    ContainsInLonger(mid, b, sub);
    ContainsAfter(a, mid + b, sub);
    assert a + mid + b == a + (mid + b);
  }

  /** Text contained in a suffix is contained in the whole. */
  lemma {:induction false} ContainsAfter(a: string, s: string, sub: string)
    requires Contains(s, sub)
    ensures Contains(a + s, sub)
    decreases |a|
  {
    if |a| > 0 {
      ContainsAfter(a[1..], s, sub);
      assert (a + s)[1..] == a[1..] + s;
    } else {
      assert a + s == s;
    }
  }

  /** The default body depends on the name only: the lists play no part in it. */
  lemma DefaultBodyIgnoresLists(w: Passage -> string, template: string, firstName: string, p1: seq<string>, i1: seq<string>, p2: seq<string>, i2: seq<string>)
    requires !KnownTemplate(template)
    ensures Body(w, template, firstName, p1, i1) == Body(w, template, firstName, p2, i2)
  {
  }

  /** A customer's two list fields after `JSON.parse`. */
  datatype Parsed = Parsed(products: seq<string>, interests: seq<string>)

  /** What `JSON.parse` makes of the two stored fields: a syntax error; a value
      that is not an array for at least one of them (`null`, a number, a string,
      an object), which has no `join` or `map`; or two arrays. */
  datatype Parse = Unparsable | NotLists | Lists(lists: Parsed)

  /** The body callback throws: `JSON.parse` fails, or the template reads a list
      that is not an array. The default template reads no list. */
  predicate Throws(template: string, p: Parse) {
    p.Unparsable? || (p.NotLists? && KnownTemplate(template))
  }

  /** The record the route creates: it sets `isSent`, not a status. */
  datatype Draft = Draft(customerId: nat, subject: string, body: string, isSent: bool)

  /** The customers selected: those that own no email, in store order. */
  function Selected(customers: seq<Customer>, emails: seq<Email>): (r: seq<Customer>)
    ensures forall c :: c in r <==> c in customers && !HasEmail(emails, c.id)
    ensures Seqs.IsSubsequence(r, customers)
  {
    Seqs.Filter(customers, (c: Customer) => !HasEmail(emails, c.id))
  }

  function Render(w: Passage -> string, template: string, c: Customer, lists: Parsed): (d: Draft)
    ensures d.customerId == c.id && !d.isSent
    ensures d.subject == Subject(template, c.firstName)
    ensures d.body == Body(w, template, c.firstName, lists.products, lists.interests)
  {
    Draft(c.id, Subject(template, c.firstName), Body(w, template, c.firstName, lists.products, lists.interests), false)
  }

  /** One `Promise.all` callback: the record created for `c`, or `None` when the
      callback throws before `prisma.email.create`. */
  function Drafted(w: Passage -> string, template: string, c: Customer, p: Parse): (r: Option<Draft>)
    ensures r.None? <==> Throws(template, p)
    ensures p.Lists? ==> r == Some(Render(w, template, c, p.lists))
    ensures r.Some? ==> r.value.customerId == c.id && !r.value.isSent && r.value.subject == Subject(template, c.firstName)
    ensures r.Some? && !KnownTemplate(template) ==> r.value.body == DefaultBody(w, c.firstName)
  {
    match p
    case Unparsable => None
    case NotLists => if KnownTemplate(template) then None else Some(Render(w, template, c, Parsed([], [])))
    case Lists(lists) => Some(Render(w, template, c, lists))
  }

  /** What the route leaves behind: the emails it created, and its answer. */
  datatype Outcome = Outcome(created: seq<Draft>, response: Result<seq<Draft>>)

  /** The generate route. `parsed[i]` is what `JSON.parse` made of the lists of
      the i-th selected customer. Every callback of the `Promise.all` runs to its
      end, so the customers whose callback does not throw get their email even
      when another one throws; one throw turns the answer into the error. */
  function Generate(w: Passage -> string, template: string, customers: seq<Customer>, emails: seq<Email>, parsed: seq<Parse>): (r: Outcome)
    requires |parsed| == |Selected(customers, emails)|
    ensures r.response.Err? <==> exists i :: 0 <= i < |parsed| && Throws(template, parsed[i])
    ensures r.response.Err? ==> r.response.message == "Failed to generate emails"
    ensures r.response.Ok? ==> r.response.value == r.created && |r.created| == |Selected(customers, emails)|
    ensures r.response.Ok? ==> forall i :: 0 <= i < |r.created| ==>
      Drafted(w, template, Selected(customers, emails)[i], parsed[i]) == Some(r.created[i])
    ensures forall i :: 0 <= i < |parsed| && !Throws(template, parsed[i]) ==>
      Drafted(w, template, Selected(customers, emails)[i], parsed[i]).value in r.created
    ensures forall d :: d in r.created ==> !d.isSent && !HasEmail(emails, d.customerId)
  {
    var selected := Selected(customers, emails);
    var created := RenderParsed(w, template, selected, parsed);
    forall i | 0 <= i < |parsed| && !Throws(template, parsed[i])
      ensures Drafted(w, template, selected[i], parsed[i]).value in created
    {
      RenderParsedHas(w, template, selected, parsed, i);
    }
    DraftsOwnNoEmail(w, template, selected, parsed, emails);
    var rendered := RenderAll(w, template, selected, parsed);
    if rendered.None? then Outcome(created, Err("Failed to generate emails"))
    else
      RenderAllParsed(w, template, selected, parsed);
      Outcome(created, Ok(created))
  }

  /** The drafts of the customers whose callback does not throw, in selection
      order. */
  function RenderParsed(w: Passage -> string, template: string, selected: seq<Customer>, parsed: seq<Parse>): (r: seq<Draft>)
    requires |parsed| == |selected|
    ensures |r| <= |selected|
    ensures |r| == |selected| <==> forall i :: 0 <= i < |parsed| ==> !Throws(template, parsed[i])
    decreases |selected|
  {
    if |selected| == 0 then []
    else
      var rest := RenderParsed(w, template, selected[1..], parsed[1..]);
      assert forall i :: 1 <= i < |parsed| ==> parsed[1..][i - 1] == parsed[i];
      match Drafted(w, template, selected[0], parsed[0])
      case None => rest
      case Some(d) => [d] + rest
  }

  /** Every customer whose callback does not throw gets a draft. */
  lemma {:induction false} RenderParsedHas(w: Passage -> string, template: string, selected: seq<Customer>, parsed: seq<Parse>, i: nat)
    requires |parsed| == |selected| && i < |selected| && !Throws(template, parsed[i])
    ensures Drafted(w, template, selected[i], parsed[i]).value in RenderParsed(w, template, selected, parsed)
    decreases |selected|
  {
    if i > 0 {
      RenderParsedHas(w, template, selected[1..], parsed[1..], i - 1);
    }
  }

  /** Every draft is the one drafted for a selected customer: the `i`-th. */
  lemma {:induction false} RenderParsedFrom(w: Passage -> string, template: string, selected: seq<Customer>, parsed: seq<Parse>, d: Draft) returns (i: nat)
    requires |parsed| == |selected| && d in RenderParsed(w, template, selected, parsed)
    ensures i < |selected| && Drafted(w, template, selected[i], parsed[i]) == Some(d)
    decreases |selected|
  {
    var first := Drafted(w, template, selected[0], parsed[0]);
    var rest := RenderParsed(w, template, selected[1..], parsed[1..]);
    if first == Some(d) {
      i := 0;
    } else {
      assert RenderParsed(w, template, selected, parsed) == (if first.Some? then [first.value] + rest else rest);
      assert d in rest;
      var j := RenderParsedFrom(w, template, selected[1..], parsed[1..], d);
      i := j + 1;
      assert parsed[1..][j] == parsed[i] && selected[1..][j] == selected[i];
    }
  }

  /** When no callback throws, the drafts created are exactly the rendered batch. */
  lemma {:induction false} RenderAllParsed(w: Passage -> string, template: string, selected: seq<Customer>, parsed: seq<Parse>)
    requires |parsed| == |selected| && RenderAll(w, template, selected, parsed).Some?
    ensures RenderParsed(w, template, selected, parsed) == RenderAll(w, template, selected, parsed).value
    decreases |selected|
  {
    if |selected| > 0 {
      RenderAllParsed(w, template, selected[1..], parsed[1..]);
    }
  }

  /** Every draft created goes unsent to a selected customer, who owns no email. */
  lemma DraftsOwnNoEmail(w: Passage -> string, template: string, selected: seq<Customer>, parsed: seq<Parse>, emails: seq<Email>)
    requires |parsed| == |selected|
    requires forall c :: c in selected ==> !HasEmail(emails, c.id)
    ensures forall d :: d in RenderParsed(w, template, selected, parsed) ==> !d.isSent && !HasEmail(emails, d.customerId)
  {
    forall d | d in RenderParsed(w, template, selected, parsed)
      ensures !d.isSent && !HasEmail(emails, d.customerId)
    {
      var i := RenderParsedFrom(w, template, selected, parsed, d);
      assert selected[i] in selected;
    }
  }

  /** Rendering every selected customer; `None` as soon as one callback throws. */
  function RenderAll(w: Passage -> string, template: string, selected: seq<Customer>, parsed: seq<Parse>): (r: Option<seq<Draft>>)
    requires |parsed| == |selected|
    ensures r.None? <==> exists i :: 0 <= i < |parsed| && Throws(template, parsed[i])
    ensures r.Some? ==> |r.value| == |selected|
    ensures r.Some? ==> forall i :: 0 <= i < |selected| ==> Drafted(w, template, selected[i], parsed[i]) == Some(r.value[i])
    decreases |selected|
  {
    if |selected| == 0 then Some([])
    else
      match Drafted(w, template, selected[0], parsed[0])
      case None => None
      case Some(d) =>
        match RenderAll(w, template, selected[1..], parsed[1..])
        case None => None
        case Some(rest) => Some([d] + rest)
  }

  /** Under the default template every parsed value renders, arrays or not: only
      a syntax error makes the route fail. */
  lemma DefaultTemplateFailsOnlyOnSyntax(w: Passage -> string, template: string, customers: seq<Customer>, emails: seq<Email>, parsed: seq<Parse>)
    requires |parsed| == |Selected(customers, emails)| && !KnownTemplate(template)
    ensures Generate(w, template, customers, emails, parsed).response.Err? <==>
      exists i :: 0 <= i < |parsed| && parsed[i].Unparsable?
  {
  }

  /** The generate route with its own wording. */
  function Route(template: string, customers: seq<Customer>, emails: seq<Email>, parsed: seq<Parse>): (r: Outcome)
    requires |parsed| == |Selected(customers, emails)|
    ensures r.response.Err? <==> exists i :: 0 <= i < |parsed| && Throws(template, parsed[i])
    ensures r.response.Ok? ==> r.response.value == r.created
    ensures forall d :: d in r.created ==> !d.isSent && !HasEmail(emails, d.customerId)
  {
    Generate(Wording, template, customers, emails, parsed)
  }

  /** A customer that already owns an email never receives a generated one, even
      from a batch that fails. */
  lemma CustomersWithEmailSkipped(w: Passage -> string, template: string, customers: seq<Customer>, emails: seq<Email>, parsed: seq<Parse>, c: Customer)
    requires |parsed| == |Selected(customers, emails)|
    requires HasEmail(emails, c.id)
    ensures forall d :: d in Generate(w, template, customers, emails, parsed).created ==> d.customerId != c.id
  {
  }
}

=== FILE: mockdata.dfy ===
/** The mock-data route: it seeds `count` customers with randomly chosen profile
    values and gives each of them three typed emails. Every random choice, the
    ids the store assigns and the clock are inputs; `Picks` holds one customer's
    choices and `ValidPicks` says which choices the generator can make. */
module MockData {
  import opened Outcomes
  import opened Records
  import opened Text
  import Stats

  /** The email types seeded for every customer, in creation order. */
  const EmailTypes := ["welcome", "follow-up", "promotional"]

  /** The separator the seeded list fields are joined with. */
  const ListSeparator := ", "

  function ProductCatalog(): seq<string> {
    ["CBD Oil", "Hemp-infused Edibles", "Topical Creams", "Hemp Flower", "Hemp Clothing/Textiles", "Hemp-based Supplements"]
  }

  function InterestCatalog(): seq<string> {
    ["Yoga", "Meditation", "Fitness", "Natural Health", "Holistic Wellness", "Nutrition"]
  }

  function Genders(): seq<string> {
    ["Male", "Female", "Other"]
  }

  function Reasons(): seq<string> {
    ["Pain Relief", "Anxiety/Stress Management", "Sleep Aid", "General Wellness", "Skin Care", "Other"]
  }

  function Frequencies(): seq<string> {
    ["Daily", "Weekly", "Monthly", "Occasionally"]
  }

  function ShoppingMethods(): seq<string> {
    ["Online", "In-store", "Both"]
  }

  function DiscoveryMethods(): seq<string> {
    ["Social Media", "Word of Mouth", "Online Search", "Advertisement", "Other"]
  }

  function IncomeRanges(): seq<string> {
    ["$25,000 - $50,000", "$50,000 - $75,000", "$75,000 - $100,000", "$100,000+"]
  }

  function EducationLevels(): seq<string> {
    ["High School", "Some College", "Bachelor's Degree", "Master's Degree", "Doctorate"]
  }

  function CommunicationMethods(): seq<string> {
    ["Email", "SMS", "Phone Call"]
  }

  const MinAge := 18
  const MaxAge := 75

  /** The random choices made for one customer. */
  datatype Picks = Picks(
    firstName: string,
    lastName: string,
    zipCode: string,
    phoneNumber: string,
    email: string,
    age: int,
    gender: string,
    products: seq<string>,
    primaryReason: string,
    frequencyOfUse: string,
    preferredShoppingMethod: string,
    discoveryMethod: string,
    incomeRange: string,
    occupation: string,
    educationLevel: string,
    preferredCommunication: string,
    interests: seq<string>,
    loyaltyProgramMember: bool)

  /** `arrayElements(catalog, { min: lo, max: hi })`: between `lo` and `hi`
      different elements of the catalog. */
  predicate SubsetPick(xs: seq<string>, catalog: seq<string>, lo: nat, hi: nat) {
    && lo <= |xs| <= hi
    && (forall i :: 0 <= i < |xs| ==> xs[i] in catalog)
    && (forall i, j :: 0 <= i < j < |xs| ==> xs[i] != xs[j])
  }

  predicate ValidPicks(p: Picks) {
    && MinAge <= p.age <= MaxAge
    && p.gender in Genders()
    && SubsetPick(p.products, ProductCatalog(), 1, 4)
    && p.primaryReason in Reasons()
    && p.frequencyOfUse in Frequencies()
    && p.preferredShoppingMethod in ShoppingMethods()
    && p.discoveryMethod in DiscoveryMethods()
    && p.incomeRange in IncomeRanges()
    && p.educationLevel in EducationLevels()
    && p.preferredCommunication in CommunicationMethods()
    && SubsetPick(p.interests, InterestCatalog(), 1, 3)
  }

  /** The customer record created from one set of choices. */
  function SeedCustomer(p: Picks, id: nat, now: int): (c: Customer)
    ensures c.id == id && c.firstName == p.firstName && c.age == p.age
    ensures c.preferredProducts == Text(Join(p.products, ListSeparator))
    ensures c.interestsHobbies == Text(Join(p.interests, ListSeparator))
    ensures c.loyaltyProgramMember == p.loyaltyProgramMember
    ensures ValidPicks(p) ==> MinAge <= c.age <= MaxAge && Stats.Countable(c)
  {
    Customer(
      id, p.firstName, p.lastName, p.email, p.phoneNumber, p.zipCode, p.age, p.gender,
      Text(Join(p.products, ListSeparator)), p.primaryReason, p.frequencyOfUse,
      p.preferredShoppingMethod, p.discoveryMethod, p.incomeRange, p.occupation,
      p.educationLevel, p.preferredCommunication, Text(Join(p.interests, ListSeparator)),
      p.loyaltyProgramMember, now)
  }

  /** `getEmailSubject` of this route; an unknown type gets a plain greeting. */
  function Subject(emailType: string, firstName: string): (r: string)
    ensures emailType !in EmailTypes ==> r == "Hello " + firstName + "!"
  {
    if emailType == "welcome" then "Welcome to Hempdash, " + firstName + "!"
    else if emailType == "follow-up" then "How are you enjoying your hemp products, " + firstName + "?"
    else if emailType == "promotional" then "Special Offer: New Hemp Products Just for You, " + firstName + "!"
    else "Hello " + firstName + "!"
  }

  /** Every subject names the customer. */
  lemma SubjectNamesCustomer(emailType: string, firstName: string)
    ensures Contains(Subject(emailType, firstName), firstName)
  {
    if emailType == "welcome" {
      ContainsInfix("Welcome to Hempdash, ", firstName, "!");
    } else if emailType == "follow-up" {
      ContainsInfix("How are you enjoying your hemp products, ", firstName, "?");
    } else if emailType == "promotional" {
      ContainsInfix("Special Offer: New Hemp Products Just for You, ", firstName, "!");
    } else {
      ContainsInfix("Hello ", firstName, "!");
    }
  }

  /** The three seeded emails of a customer have three different subjects. */
  lemma SubjectsDistinct(firstName: string)
    ensures Subject(EmailTypes[0], firstName) != Subject(EmailTypes[1], firstName)
    ensures Subject(EmailTypes[1], firstName) != Subject(EmailTypes[2], firstName)
    ensures Subject(EmailTypes[0], firstName) != Subject(EmailTypes[2], firstName)
  {
    assert EmailTypes[0] == "welcome" && EmailTypes[1] == "follow-up" && EmailTypes[2] == "promotional";
    assert |Subject(EmailTypes[0], firstName)| == |firstName| + 22;
    assert |Subject(EmailTypes[1], firstName)| == |firstName| + 42;
    assert |Subject(EmailTypes[2], firstName)| == |firstName| + 48;
  }

  /** The fixed text of the seeded bodies, between the interpolated values, named
      by the email type and their order in it. */
  datatype Passage =
    | WelcomeText1
    | WelcomeText2
    | WelcomeText3
    | FollowUpText1
    | FollowUpText2
    | FollowUpText3
    | PromotionalText1
    | PromotionalText2
    | PromotionalText3
    | DefaultText1
    | DefaultText2

  function Wording(p: Passage): string {
    match p
    case WelcomeText1 => "Dear "
    case WelcomeText2 => ",\n\nWelcome to Hempdash! We're excited to have you join our community of hemp enthusiasts.\n\nBased on your preferences for "
    case WelcomeText3 => ", we think you'll love our selection.\n\nBest regards,\nThe Hempdash Team"
    case FollowUpText1 => "Hi "
    case FollowUpText2 => ",\n\nWe hope you're enjoying your hemp products! We'd love to hear your feedback.\n\nYour preferred products: "
    case FollowUpText3 => "\n\nBest regards,\nThe Hempdash Team"
    case PromotionalText1 => "Hello "
    case PromotionalText2 => ",\n\nWe have some exciting new hemp products that match your interests in "
    case PromotionalText3 => "!\n\nBest regards,\nThe Hempdash Team"
    case DefaultText1 => "Hello "
    case DefaultText2 => ",\n\nThank you for being a valued customer.\n\nBest regards,\nThe Hempdash Team"
  }

  /** `getEmailBody` of this route; `products` is the stored product string. */
  function Body(emailType: string, firstName: string, products: string): (r: string)
    ensures emailType !in EmailTypes ==> r == Wording(DefaultText1) + firstName + Wording(DefaultText2)
  {
    if emailType == "welcome" then (Wording(WelcomeText1) + firstName + Wording(WelcomeText2)) + products + Wording(WelcomeText3)
    else if emailType == "follow-up" then (Wording(FollowUpText1) + firstName + Wording(FollowUpText2)) + products + Wording(FollowUpText3)
    else if emailType == "promotional" then (Wording(PromotionalText1) + firstName + Wording(PromotionalText2)) + products + Wording(PromotionalText3)
    else Wording(DefaultText1) + firstName + Wording(DefaultText2)
  }

  /** The three typed bodies quote the stored product string as it is. */
  lemma BodiesQuoteProducts(emailType: string, firstName: string, products: string)
    requires emailType in EmailTypes
    ensures Contains(Body(emailType, firstName, products), products)
  {
    if emailType == "welcome" {
      ContainsInfix(Wording(WelcomeText1) + firstName + Wording(WelcomeText2), products, Wording(WelcomeText3));
    } else if emailType == "follow-up" {
      ContainsInfix(Wording(FollowUpText1) + firstName + Wording(FollowUpText2), products, Wording(FollowUpText3));
    } else {
      ContainsInfix(Wording(PromotionalText1) + firstName + Wording(PromotionalText2), products, Wording(PromotionalText3));
    }
  }

  /** An untyped body does not depend on the products. */
  lemma DefaultBodyIgnoresProducts(emailType: string, firstName: string, a: string, b: string)
    requires emailType !in EmailTypes
    ensures Body(emailType, firstName, a) == Body(emailType, firstName, b)
  {
  }

  /** The three emails of one customer, typed in the order of `EmailTypes`; the
      ids, the statuses (random among the three) and the clock are inputs. */
  function SeedEmails(c: Customer, products: string, ids: seq<nat>, statuses: seq<Status>, now: int): (r: seq<Email>)
    requires |ids| == 3 && |statuses| == 3
    ensures |r| == 3
    ensures forall k :: 0 <= k < 3 ==>
      && r[k].id == ids[k] && r[k].customerId == c.id
      && r[k].emailType == Some(EmailTypes[k]) && r[k].status == statuses[k]
      && r[k].subject == Subject(EmailTypes[k], c.firstName)
      && r[k].body == Body(EmailTypes[k], c.firstName, products)
  {
    seq(3, k requires 0 <= k < 3 =>
      Email(ids[k], c.id, Some(EmailTypes[k]), Subject(EmailTypes[k], c.firstName),
        Body(EmailTypes[k], c.firstName, products), statuses[k], now, now))
  }

  datatype Seeded = Seeded(customers: seq<Customer>, emails: seq<Email>)

  /** The three consecutive elements starting at `3 * i`. */
  function Triple<T>(s: seq<T>, i: nat): seq<T>
    requires 3 * i + 3 <= |s|
  {
    s[3 * i..3 * i + 3]
  }

  lemma TripleShift<T>(a: seq<T>, b: seq<T>, i: nat)
    requires |a| == 3 && 1 <= i && 3 * i + 3 <= |a| + |b|
    ensures Triple(a + b, i) == Triple(b, i - 1)
  {
    assert forall k :: 0 <= k < 3 ==> Triple(a + b, i)[k] == (a + b)[3 * i + k] == b[3 * (i - 1) + k];
  }

  /** The mock-data route for `|picks|` customers: customer `i` gets the id
      `customerIds[i]` and owns the three emails starting at `3 * i`, in the
      order of `flatMap` over the customers. */
  function Seed(picks: seq<Picks>, customerIds: seq<nat>, emailIds: seq<nat>, statuses: seq<Status>, now: int): (r: Seeded)
    requires |customerIds| == |picks| && |emailIds| == 3 * |picks| && |statuses| == 3 * |picks|
    ensures |r.customers| == |picks| && |r.emails| == 3 * |picks|
    ensures forall i :: 0 <= i < |picks| ==> r.customers[i] == SeedCustomer(picks[i], customerIds[i], now)
    decreases |picks|
  {
    if |picks| == 0 then Seeded([], [])
    else
      var c := SeedCustomer(picks[0], customerIds[0], now);
      var mine := SeedEmails(c, Join(picks[0].products, ListSeparator), emailIds[..3], statuses[..3], now);
      var rest := Seed(picks[1..], customerIds[1..], emailIds[3..], statuses[3..], now);
      Seeded([c] + rest.customers, mine + rest.emails)
  }

  /** Customer `i` owns the three emails starting at `3 * i`, drawn with the ids
      and statuses starting at `3 * i`. */
  lemma {:induction false} SeedTriples(picks: seq<Picks>, customerIds: seq<nat>, emailIds: seq<nat>, statuses: seq<Status>, now: int, i: nat)
    requires |customerIds| == |picks| && |emailIds| == 3 * |picks| && |statuses| == 3 * |picks|
    requires i < |picks|
    ensures var r := Seed(picks, customerIds, emailIds, statuses, now);
      Triple(r.emails, i) == SeedEmails(r.customers[i], Join(picks[i].products, ListSeparator), Triple(emailIds, i), Triple(statuses, i), now)
    decreases i
  {
    var r := Seed(picks, customerIds, emailIds, statuses, now);
    var rest := Seed(picks[1..], customerIds[1..], emailIds[3..], statuses[3..], now);
    var c := SeedCustomer(picks[0], customerIds[0], now);
    var mine := SeedEmails(c, Join(picks[0].products, ListSeparator), emailIds[..3], statuses[..3], now);
    assert r.emails == mine + rest.emails;
    if i == 0 {
      assert Triple(r.emails, 0) == mine;
    } else {
      SeedTriples(picks[1..], customerIds[1..], emailIds[3..], statuses[3..], now, i - 1);
      TripleShift(mine, rest.emails, i);
      TripleShift(emailIds[..3], emailIds[3..], i);
      assert emailIds[..3] + emailIds[3..] == emailIds;
      TripleShift(statuses[..3], statuses[3..], i);
      assert statuses[..3] + statuses[3..] == statuses;
      assert r.customers[i] == rest.customers[i - 1];
    }
  }

  /** Each seeded email belongs to its customer, carries its type and the drawn status,
      and its subject and body are rendered for that type. */
  lemma SeededEmail(picks: seq<Picks>, customerIds: seq<nat>, emailIds: seq<nat>, statuses: seq<Status>, now: int, i: int, k: int)
    requires |customerIds| == |picks| && |emailIds| == 3 * |picks| && |statuses| == 3 * |picks|
    requires 0 <= i < |picks| && 0 <= k < 3
    ensures var e := Seed(picks, customerIds, emailIds, statuses, now).emails[3 * i + k];
      && e.customerId == customerIds[i]
      && e.emailType == Some(EmailTypes[k])
      && e.status == statuses[3 * i + k]
      && e.subject == Subject(EmailTypes[k], picks[i].firstName)
      && e.body == Body(EmailTypes[k], picks[i].firstName, Join(picks[i].products, ListSeparator))
  {
    var r := Seed(picks, customerIds, emailIds, statuses, now);
    SeedTriples(picks, customerIds, emailIds, statuses, now, i);
    assert r.emails[3 * i + k] == Triple(r.emails, i)[k];
    assert statuses[3 * i + k] == Triple(statuses, i)[k];
  }

  /** Splitting a seeded list field on ", " gives back the chosen catalog items. */
  lemma {:induction false} SeededListSplitsBack(xs: seq<string>, catalog: seq<string>, lo: nat, hi: nat)
    requires SubsetPick(xs, catalog, lo, hi) && lo >= 1
    requires forall x :: x in catalog ==> ',' !in x
    ensures Split(Join(xs, ListSeparator), ListSeparator) == xs
  {
    forall i | 0 <= i < |xs|
      ensures Separable(xs[i], ListSeparator)
    {
      assert xs[i] in catalog;
      SeparableWithoutLead(xs[i], ListSeparator);
    }
    SplitJoin(xs, ListSeparator);
  }

  lemma CatalogsWithoutComma()
    ensures forall x :: x in ProductCatalog() ==> ',' !in x
    ensures forall x :: x in InterestCatalog() ==> ',' !in x
  {
  }

  /** The statistics route reads a seeded customer's lists back as exactly the
      chosen products and interests. */
  lemma SeededCustomerCountsPicks(p: Picks, id: nat, now: int)
    requires ValidPicks(p)
    ensures Stats.ProductPieces(SeedCustomer(p, id, now)) == p.products
    ensures Stats.InterestPieces(SeedCustomer(p, id, now)) == p.interests
  {
    CatalogsWithoutComma();
    SeededListSplitsBack(p.products, ProductCatalog(), 1, 4);
    SeededListSplitsBack(p.interests, InterestCatalog(), 1, 3);
  }
}

=== FILE: numbers.dfy ===
/** Rounding as `Math.round` does it on an exact quotient: to the nearest
    integer, halves upward. */
module Numbers {

  /** `Math.round(num / den)` for a positive denominator, computed exactly. */
  function RoundHalfUp(num: int, den: int): (r: int)
    requires den > 0
    ensures (r as real) - 0.5 <= (num as real) / (den as real) < (r as real) + 0.5
  {
    var q := (2 * num + den) / (2 * den);
    var m := (2 * num + den) % (2 * den);
    QuotientBounds(num, den, q, m);
    q
  }

  lemma QuotientBounds(num: int, den: int, q: int, m: int)
    requires den > 0 && 2 * num + den == 2 * den * q + m && 0 <= m < 2 * den
    ensures (q as real) - 0.5 <= (num as real) / (den as real) < (q as real) + 0.5
  {
    var x := (num as real) / (den as real);
    var d := den as real;
    assert x * d == num as real;
    assert ((q as real) - 0.5) * d == (num as real) - (m as real) / 2.0;
    assert ((q as real) + 0.5) * d == (num as real) + d - (m as real) / 2.0;
    ScaleBack(x, d, (q as real) - 0.5, (q as real) + 0.5);
  }

  lemma ScaleBack(x: real, d: real, lo: real, hi: real)
    requires d > 0.0 && lo * d <= x * d < hi * d
    ensures lo <= x < hi
  {
  }

  lemma ScaleBackClosed(x: real, d: real, lo: real, hi: real)
    requires d > 0.0 && lo * d <= x * d <= hi * d
    ensures lo <= x <= hi
  {
  }

  /** Rounding a mean of values in `[lo, hi]` stays in `[lo, hi]`. */
  lemma RoundedMeanWithin(sum: int, n: int, lo: int, hi: int)
    requires n > 0 && n * lo <= sum <= n * hi
    ensures lo <= RoundHalfUp(sum, n) <= hi
  {
    var q := (2 * sum + n) / (2 * n);
    var m := (2 * sum + n) % (2 * n);
    assert 2 * n * q + m == 2 * sum + n && 0 <= m < 2 * n;
    assert n * (2 * q + 1 - 2 * lo) == 2 * n * q + n - 2 * n * lo;
    assert n * (2 * hi + 1 - 2 * q) == 2 * n * hi + n - 2 * n * q;
    NonNegativeFactor(n, 2 * q + 1 - 2 * lo);
    NonNegativeFactor(n, 2 * hi + 1 - 2 * q);
  }

  /** A rounded percentage of a part of a whole lies between 0 and 100. */
  lemma PercentWithin(part: int, whole: int)
    requires whole > 0
    ensures 0 <= part <= whole ==> 0 <= RoundHalfUp(part * 100, whole) <= 100
  {
    if 0 <= part <= whole {
      RoundedMeanWithin(part * 100, whole, 0, 100);
    }
  }

  lemma NonNegativeFactor(n: int, a: int)
    requires n > 0 && n * a >= 0
    ensures a >= 0
  {
  }
}

=== FILE: outcomes.dfy ===
/** Optional values and request outcomes. Every route handler of the dashboard
    either answers with its payload or catches the exception and answers with a
    500 status and a fixed message; `Result` models that pair of outcomes. */
module Outcomes {

  datatype Option<+T> = None | Some(value: T)

  /** `Err` carries the fixed message the handler sends with its 500 status. */
  datatype Result<+T> = Ok(value: T) | Err(message: string)
}

=== FILE: pagination.dfy ===
/** The email listing route: one page of the emails, newest first, each with its
    customer's name, plus the pagination figures. The query parameters arrive
    already parsed as integers (`None` when absent or empty); the store's
    newest-first ordering is an input. */
module EmailPages {
  import opened Outcomes
  import opened Records

  const DefaultPage := 1
  const DefaultLimit := 10

  /** An email as listed: with its customer's first and last name. */
  datatype ListedEmail = ListedEmail(email: Email, firstName: string, lastName: string)

  datatype Pagination = Pagination(total: nat, page: int, limit: int, totalPages: Option<int>)

  datatype Listing = Listing(emails: seq<ListedEmail>, pagination: Pagination)

  function OrDefault(param: Option<int>, default: int): (r: int)
    ensures param.None? ==> r == default
    ensures param.Some? ==> r == param.value
  {
    match param
    case None => default
    case Some(v) => v
  }

  /** The number of emails before the requested page. */
  function Skip(page: int, limit: int): (skip: int)
    ensures page == 1 ==> skip == 0
    ensures limit >= 0 && page >= 1 ==> skip >= 0
    ensures skip + limit == page * limit
  {
    (page - 1) * limit
  }

  /** `Math.ceil(total / limit)`; a zero limit gives a non-finite number, which the
      JSON response carries as null. */
  function TotalPages(total: nat, limit: int): (r: Option<int>)
    ensures r.None? <==> limit == 0
    ensures limit > 0 ==> r.value >= 0 && (r.value == 0 <==> total == 0)
    ensures limit > 0 ==> (r.value - 1) * limit < total <= r.value * limit
  {
    if limit == 0 then None
    else if limit > 0 then
      var tp := (total + limit - 1) / limit;
      CeilingBounds(total, limit, tp);
      Some(tp)
    else Some(-(total / -limit))
  }

  lemma CeilingBounds(total: nat, limit: int, tp: int)
    requires limit > 0 && tp == (total + limit - 1) / limit
    ensures tp >= 0 && (tp == 0 <==> total == 0)
    ensures (tp - 1) * limit < total <= tp * limit
  {
    var m := (total + limit - 1) % limit;
    assert total + limit - 1 == tp * limit + m;
    assert (tp - 1) * limit == tp * limit - limit;
  }

  /** The slice `[skip, skip + limit)` of the newest-first order, cut at its end. */
  function Window<T>(rows: seq<T>, skip: nat, limit: nat): (r: seq<T>)
    ensures |r| <= limit
    ensures skip <= |rows| ==> |r| == if skip + limit <= |rows| then limit else |rows| - skip
    ensures forall i :: 0 <= i < |r| ==> skip + i < |rows| && r[i] == rows[skip + i]
  {
    if skip >= |rows| then []
    else if skip + limit <= |rows| then rows[skip..skip + limit]
    else rows[skip..]
  }

  /** A negative `take` of `count` rows: the store reverses the order, skips and
      takes there, and hands the rows back in the requested order — the `count`
      rows that end `skip` rows before the end, cut at the start. */
  function WindowFromEnd<T>(rows: seq<T>, skip: nat, count: nat): (r: seq<T>)
    ensures |r| <= count
    ensures |r| == if skip + count <= |rows| then count else if skip <= |rows| then |rows| - skip else 0
    ensures forall i :: 0 <= i < |r| ==> 0 <= |rows| - skip - |r| + i && r[i] == rows[|rows| - skip - |r| + i]
  {
    if skip >= |rows| then []
    else if skip + count <= |rows| then rows[|rows| - skip - count..|rows| - skip]
    else rows[..|rows| - skip]
  }

  function Reverse<T>(s: seq<T>): (r: seq<T>)
    ensures |r| == |s| && forall i :: 0 <= i < |s| ==> r[i] == s[|s| - 1 - i]
  {
    seq(|s|, i requires 0 <= i < |s| => s[|s| - 1 - i])
  }

  /** Taking from the end is taking from the front of the reversed order, and
      reversing the result back. */
  lemma WindowFromEndReverses<T>(rows: seq<T>, skip: nat, count: nat)
    ensures WindowFromEnd(rows, skip, count) == Reverse(Window(Reverse(rows), skip, count))
  {
    var a := WindowFromEnd(rows, skip, count);
    var w := Window(Reverse(rows), skip, count);
    var b := Reverse(w);
    assert |a| == |b|;
    forall i | 0 <= i < |a|
      ensures a[i] == b[i]
    {
      assert b[i] == w[|w| - 1 - i] == Reverse(rows)[skip + |w| - 1 - i];
    }
  }

  /** The GET route over the store's emails in newest-first order. The store
      refuses a negative skip, which the route answers with the error; a negative
      take counts from the end of the order. */
  function ListEmails(pageParam: Option<int>, limitParam: Option<int>, newestFirst: seq<ListedEmail>): (r: Result<Listing>)
    ensures var page := OrDefault(pageParam, DefaultPage);
      var limit := OrDefault(limitParam, DefaultLimit);
      var skip := Skip(page, limit);
      && (r.Err? <==> skip < 0)
      && (r.Err? ==> r.message == "Failed to fetch emails")
      && (r.Ok? ==> r.value.pagination == Pagination(|newestFirst|, page, limit, TotalPages(|newestFirst|, limit)))
      && (r.Ok? && limit >= 0 ==>
        && |r.value.emails| == (if skip + limit <= |newestFirst| then limit
                                else if skip <= |newestFirst| then |newestFirst| - skip
                                else 0)
        && forall i :: 0 <= i < |r.value.emails| ==>
          skip + i < |newestFirst| && r.value.emails[i] == newestFirst[skip + i])
      && (r.Ok? && limit < 0 ==>
        && |r.value.emails| == (if skip - limit <= |newestFirst| then -limit
                                else if skip <= |newestFirst| then |newestFirst| - skip
                                else 0)
        && forall i :: 0 <= i < |r.value.emails| ==>
          var j := |newestFirst| - skip - |r.value.emails| + i;
          0 <= j < |newestFirst| && r.value.emails[i] == newestFirst[j])
  {
    var page := OrDefault(pageParam, DefaultPage);
    var limit := OrDefault(limitParam, DefaultLimit);
    var skip := Skip(page, limit);
    if skip < 0 then Err("Failed to fetch emails")
    else
      var rows := if limit >= 0 then Window(newestFirst, skip, limit) else WindowFromEnd(newestFirst, skip, -limit);
      Ok(Listing(rows, Pagination(|newestFirst|, page, limit, TotalPages(|newestFirst|, limit))))
  }

  /** With a positive limit, a page holds emails exactly when its number lies
      between 1 and the reported page count, and every page but the last is full. */
  lemma PagesUpToTotal(newestFirst: seq<ListedEmail>, page: int, limit: int)
    requires limit > 0 && page >= 1
    ensures var r := ListEmails(Some(page), Some(limit), newestFirst);
      && r.Ok?
      && (|r.value.emails| > 0 <==> page <= r.value.pagination.totalPages.value)
      && (page < r.value.pagination.totalPages.value ==> |r.value.emails| == limit)
  {
    var tp := TotalPages(|newestFirst|, limit).value;
    var skip := Skip(page, limit);
    assert skip == (page - 1) * limit;
    if page <= tp {
      assert (page - 1) * limit <= (tp - 1) * limit by {
        MonotoneProduct(page - 1, tp - 1, limit);
      }
    } else {
      assert tp * limit <= (page - 1) * limit by {
        MonotoneProduct(tp, page - 1, limit);
      }
    }
    if page < tp {
      assert page * limit <= (tp - 1) * limit by {
        MonotoneProduct(page, tp - 1, limit);
      }
    }
  }

  lemma MonotoneProduct(a: int, b: int, c: int)
    requires a <= b && c > 0
    ensures a * c <= b * c
  {
    assert b * c - a * c == (b - a) * c;
  }

  /** The emails are newest first when `createdAt` never increases along the order. */
  predicate NewestFirst(rows: seq<ListedEmail>) {
    forall i, j :: 0 <= i < j < |rows| ==> rows[i].email.createdAt >= rows[j].email.createdAt
  }

  /** A page of a newest-first order is itself newest first. */
  lemma PageKeepsOrder(pageParam: Option<int>, limitParam: Option<int>, newestFirst: seq<ListedEmail>)
    requires NewestFirst(newestFirst) && ListEmails(pageParam, limitParam, newestFirst).Ok?
    ensures NewestFirst(ListEmails(pageParam, limitParam, newestFirst).value.emails)
  {
    var page := OrDefault(pageParam, DefaultPage);
    var limit := OrDefault(limitParam, DefaultLimit);
    var skip := Skip(page, limit);
    assert skip >= 0;
    if limit >= 0 {
      assert ListEmails(pageParam, limitParam, newestFirst).value.emails == Window(newestFirst, skip, limit);
      WindowKeepsOrder(newestFirst, skip, limit);
    } else {
      assert ListEmails(pageParam, limitParam, newestFirst).value.emails == WindowFromEnd(newestFirst, skip, -limit);
      WindowFromEndKeepsOrder(newestFirst, skip, -limit);
    }
  }

  lemma WindowKeepsOrder(rows: seq<ListedEmail>, skip: nat, limit: nat)
    requires NewestFirst(rows)
    ensures NewestFirst(Window(rows, skip, limit))
  {
    var r := Window(rows, skip, limit);
    forall i, j | 0 <= i < j < |r|
      ensures r[i].email.createdAt >= r[j].email.createdAt
    {
      assert r[i] == rows[skip + i] && r[j] == rows[skip + j];
    }
  }

  lemma WindowFromEndKeepsOrder(rows: seq<ListedEmail>, skip: nat, count: nat)
    requires NewestFirst(rows)
    ensures NewestFirst(WindowFromEnd(rows, skip, count))
  {
    var r := WindowFromEnd(rows, skip, count);
    var base := |rows| - skip - |r|;
    forall i, j | 0 <= i < j < |r|
      ensures r[i].email.createdAt >= r[j].email.createdAt
    {
      assert r[i] == rows[base + i] && r[j] == rows[base + j];
    }
  }
}

=== FILE: records.dfy ===
/** The two persisted entities of the dashboard: customers and the emails that
    belong to them. Timestamps are integers (milliseconds); database ids are
    natural numbers assigned by the store. */
module Records {
  import opened Outcomes

  /** The lifecycle of an email: created `pending`, then `sent` or `failed` once. */
  datatype Status = Pending | Sent | Failed

  /** The string the store and the pages use for a status. */
  function StatusName(s: Status): (name: string)
    ensures name in {"pending", "sent", "failed"}
  {
    match s
    case Pending => "pending"
    case Sent => "sent"
    case Failed => "failed"
  }

  lemma StatusNameInjective(a: Status, b: Status)
    ensures StatusName(a) == StatusName(b) <==> a == b
  {
  }

  /** A list-valued customer field as it may be stored: absent (null), one
      delimited string, or an array. */
  datatype ListField = Missing | Text(text: string) | Items(items: seq<string>)

  datatype Customer = Customer(
    id: nat,
    firstName: string,
    lastName: string,
    email: string,
    phoneNumber: string,
    zipCode: string,
    age: int,
    gender: string,
    preferredProducts: ListField,
    primaryReason: string,
    frequencyOfUse: string,
    preferredShoppingMethod: string,
    discoveryMethod: string,
    incomeRange: string,
    occupation: string,
    educationLevel: string,
    preferredCommunication: string,
    interestsHobbies: ListField,
    loyaltyProgramMember: bool,
    createdAt: int)

  /** An email record; `emailType` is only set by the mock-data seeder. */
  datatype Email = Email(
    id: nat,
    customerId: nat,
    emailType: Option<string>,
    subject: string,
    body: string,
    status: Status,
    createdAt: int,
    updatedAt: int)

  /** Customer `customerId` owns at least one email of `store`. */
  predicate HasEmail(store: seq<Email>, customerId: nat) {
    exists i :: 0 <= i < |store| && store[i].customerId == customerId
  }
}

=== FILE: seqs.dfy ===
/** Order-preserving selection over sequences, the model of `Array.prototype.filter`. */
module Seqs {

  /** `a` can be obtained from `b` by deleting elements, keeping the order of the rest. */
  predicate IsSubsequence<T(==)>(a: seq<T>, b: seq<T>)
    decreases |b|
  {
    |a| == 0 || (|b| > 0 && ((a[0] == b[0] && IsSubsequence(a[1..], b[1..])) || IsSubsequence(a, b[1..])))
  }

  lemma AppendAssociative<T>(a: seq<T>, b: seq<T>, c: seq<T>)
    ensures a + (b + c) == (a + b) + c
  {
  }

  /** The elements of `s` that satisfy `keep`, in their original order. */
  function Filter<T(==)>(s: seq<T>, keep: T -> bool): (r: seq<T>)
    ensures |r| <= |s|
    ensures forall x :: x in r ==> x in s && keep(x)
    ensures forall x :: x in s && keep(x) ==> x in r
    ensures forall x :: x in s ==> multiset(r)[x] == if keep(x) then multiset(s)[x] else 0
    ensures IsSubsequence(r, s)
    ensures (forall x :: x in s ==> keep(x)) ==> r == s
    ensures (forall x :: x in s ==> !keep(x)) ==> r == []
  {
    if |s| == 0 then []
    else
      assert s == [s[0]] + s[1..];
      var rest := Filter(s[1..], keep);
      if keep(s[0]) then [s[0]] + rest else rest
  }

  lemma FilterSingle<T>(x: T, keep: T -> bool)
    ensures Filter([x], keep) == if keep(x) then [x] else []
  {
    assert [x][1..] == [];
  }

  /** Filtering a concatenation filters each part. */
  lemma {:induction false} FilterAppend<T>(a: seq<T>, b: seq<T>, keep: T -> bool)
    ensures Filter(a + b, keep) == Filter(a, keep) + Filter(b, keep)
    decreases |a|
  {
    if |a| == 0 {
      assert a + b == b;
    } else {
      assert (a + b)[0] == a[0];
      assert (a + b)[1..] == a[1..] + b;
      FilterAppend(a[1..], b, keep);
    }
  }

  /** Conditions that agree on the elements of `s` select the same elements. */
  lemma {:induction false} FilterSame<T>(s: seq<T>, p: T -> bool, q: T -> bool)
    requires forall i :: 0 <= i < |s| ==> p(s[i]) == q(s[i])
    ensures Filter(s, p) == Filter(s, q)
    decreases |s|
  {
    if |s| > 0 {
      FilterSame(s[1..], p, q);
    }
  }

  /** The conjunction of two conditions. */
  function Both<T>(p: T -> bool, q: T -> bool): T -> bool {
    x => p(x) && q(x)
  }

  /** Filtering twice is filtering once by both conditions. */
  lemma {:induction false} FilterTwice<T>(s: seq<T>, p: T -> bool, q: T -> bool)
    ensures Filter(Filter(s, p), q) == Filter(s, Both(p, q))
    decreases |s|
  {
    if |s| > 0 {
      FilterTwice(s[1..], p, q);
      if p(s[0]) {
        assert Filter(s, p)[1..] == Filter(s[1..], p);
      }
    }
  }

  /** The number of elements of `s` that satisfy `p`. */
  function CountWhere<T>(s: seq<T>, p: T -> bool): (n: nat)
    ensures n <= |s|
  {
    if |s| == 0 then 0 else (if p(s[0]) then 1 else 0) + CountWhere(s[1..], p)
  }

  lemma {:induction false} CountWhereIsFilterLength<T>(s: seq<T>, p: T -> bool)
    ensures CountWhere(s, p) == |Filter(s, p)|
  {
    if |s| > 0 {
      CountWhereIsFilterLength(s[1..], p);
    }
  }
}

=== FILE: stats.dfy ===
/** The statistics route: one pass over the customers fills ten frequency tables,
    and the engagement metrics (loyalty rate, average age and four "most common"
    values) are derived from them. The totals the route reads directly from the
    store (customer, loyalty-member, email and sent-today counts) are inputs. */
module Stats {
  import opened Outcomes
  import opened Records
  import opened Text
  import opened Tally
  import Numbers

  /** The separator the route splits product and interest strings on. */
  const PieceSeparator := ", "

  /** What a metric reads when there is no most common value. */
  const NotAvailable := "N/A"

  /** The age bucket of a customer; every age below 25 counts as "18-24". */
  function AgeGroup(age: int): (g: string)
    ensures age < 25 <==> g == "18-24"
    ensures 25 <= age < 35 <==> g == "25-34"
    ensures 35 <= age < 45 <==> g == "35-44"
    ensures 45 <= age < 55 <==> g == "45-54"
    ensures 55 <= age <==> g == "55+"
  {
    if age < 25 then "18-24"
    else if age < 35 then "25-34"
    else if age < 45 then "35-44"
    else if age < 55 then "45-54"
    else "55+"
  }

  datatype Demographics = Demographics(
    ageGroups: Table,
    genderDistribution: Table,
    productPreferences: Table,
    reasonsForUse: Table,
    shoppingMethods: Table,
    discoveryMethods: Table,
    incomeRanges: Table,
    educationLevels: Table,
    communicationPreferences: Table,
    interestsHobbies: Table)

  predicate Valid(d: Demographics) {
    && WellFormed(d.ageGroups) && WellFormed(d.genderDistribution)
    && WellFormed(d.productPreferences) && WellFormed(d.reasonsForUse)
    && WellFormed(d.shoppingMethods) && WellFormed(d.discoveryMethods)
    && WellFormed(d.incomeRanges) && WellFormed(d.educationLevels)
    && WellFormed(d.communicationPreferences) && WellFormed(d.interestsHobbies)
  }

  const NoDemographics := Demographics([], [], [], [], [], [], [], [], [], [])

  /** The route calls `split` on both list fields; on a null or an array that
      throws, and the whole request fails. */
  predicate Countable(c: Customer) {
    c.preferredProducts.Text? && c.interestsHobbies.Text?
  }

  function ProductPieces(c: Customer): seq<string>
    requires Countable(c)
  {
    Split(c.preferredProducts.text, PieceSeparator)
  }

  function InterestPieces(c: Customer): seq<string>
    requires Countable(c)
  {
    Split(c.interestsHobbies.text, PieceSeparator)
  }

  /** One iteration of the route's `customers.forEach`: the customer's age bucket
      and each single-valued answer gain one count, and each product and interest
      piece gains one. */
  function Absorb(d: Demographics, c: Customer): (r: Demographics)
    requires Countable(c)
    ensures Valid(d) ==> Valid(r)
  {
    d.(ageGroups := Bump(d.ageGroups, AgeGroup(c.age)),
       genderDistribution := Bump(d.genderDistribution, c.gender),
       productPreferences := Tally.Count(d.productPreferences, ProductPieces(c)),
       reasonsForUse := Bump(d.reasonsForUse, c.primaryReason),
       shoppingMethods := Bump(d.shoppingMethods, c.preferredShoppingMethod),
       discoveryMethods := Bump(d.discoveryMethods, c.discoveryMethod),
       incomeRanges := Bump(d.incomeRanges, c.incomeRange),
       educationLevels := Bump(d.educationLevels, c.educationLevel),
       communicationPreferences := Bump(d.communicationPreferences, c.preferredCommunication),
       interestsHobbies := Tally.Count(d.interestsHobbies, InterestPieces(c)))
  }

  /** The `forEach` over the remaining customers `cs`, in order. */
  function AbsorbAll(d: Demographics, cs: seq<Customer>): (r: Demographics)
    requires forall i :: 0 <= i < |cs| ==> Countable(cs[i])
    ensures Valid(d) ==> Valid(r)
    decreases |cs|
  {
    if |cs| == 0 then d else AbsorbAll(Absorb(d, cs[0]), cs[1..])
  }

  const AgeGroupOf := (c: Customer) => AgeGroup(c.age)
  const GenderOf := (c: Customer) => c.gender
  const ReasonOf := (c: Customer) => c.primaryReason
  const ShoppingMethodOf := (c: Customer) => c.preferredShoppingMethod
  const DiscoveryMethodOf := (c: Customer) => c.discoveryMethod
  const IncomeRangeOf := (c: Customer) => c.incomeRange
  const EducationLevelOf := (c: Customer) => c.educationLevel
  const CommunicationOf := (c: Customer) => c.preferredCommunication

  /** The values one single-valued answer takes over the customers, in order. */
  function Column(cs: seq<Customer>, field: Customer -> string): (r: seq<string>)
    ensures |r| == |cs|
  {
    if |cs| == 0 then [] else [field(cs[0])] + Column(cs[1..], field)
  }

  /** Every product piece of every customer, in order. */
  function ProductColumn(cs: seq<Customer>): seq<string>
    requires forall i :: 0 <= i < |cs| ==> Countable(cs[i])
  {
    if |cs| == 0 then [] else ProductPieces(cs[0]) + ProductColumn(cs[1..])
  }

  /** Every interest piece of every customer, in order. */
  function InterestColumn(cs: seq<Customer>): seq<string>
    requires forall i :: 0 <= i < |cs| ==> Countable(cs[i])
  {
    if |cs| == 0 then [] else InterestPieces(cs[0]) + InterestColumn(cs[1..])
  }

  /** The tables counted column by column rather than customer by customer. Every
      single-valued table gains one count per customer, the product and interest
      tables one per piece, and each age bucket one per customer in it. */
  function Tabulate(d: Demographics, cs: seq<Customer>): (r: Demographics)
    requires forall i :: 0 <= i < |cs| ==> Countable(cs[i])
    ensures Total(r.ageGroups) == Total(d.ageGroups) + |cs|
    ensures Total(r.genderDistribution) == Total(d.genderDistribution) + |cs|
    ensures Total(r.reasonsForUse) == Total(d.reasonsForUse) + |cs|
    ensures Total(r.shoppingMethods) == Total(d.shoppingMethods) + |cs|
    ensures Total(r.discoveryMethods) == Total(d.discoveryMethods) + |cs|
    ensures Total(r.incomeRanges) == Total(d.incomeRanges) + |cs|
    ensures Total(r.educationLevels) == Total(d.educationLevels) + |cs|
    ensures Total(r.communicationPreferences) == Total(d.communicationPreferences) + |cs|
    ensures Total(r.productPreferences) == Total(d.productPreferences) + |ProductColumn(cs)|
    ensures Total(r.interestsHobbies) == Total(d.interestsHobbies) + |InterestColumn(cs)|
    ensures forall g :: CountOf(r.ageGroups, g) == CountOf(d.ageGroups, g) + multiset(Column(cs, AgeGroupOf))[g]
  {
    CountOfCount(d.ageGroups, Column(cs, AgeGroupOf));
    Demographics(
      Count(d.ageGroups, Column(cs, AgeGroupOf)),
      Count(d.genderDistribution, Column(cs, GenderOf)),
      Count(d.productPreferences, ProductColumn(cs)),
      Count(d.reasonsForUse, Column(cs, ReasonOf)),
      Count(d.shoppingMethods, Column(cs, ShoppingMethodOf)),
      Count(d.discoveryMethods, Column(cs, DiscoveryMethodOf)),
      Count(d.incomeRanges, Column(cs, IncomeRangeOf)),
      Count(d.educationLevels, Column(cs, EducationLevelOf)),
      Count(d.communicationPreferences, Column(cs, CommunicationOf)),
      Count(d.interestsHobbies, InterestColumn(cs)))
  }

  /** The route's customer-by-customer pass builds exactly the column-by-column
      tables: the tables are independent of each other. */
  lemma {:induction false} AbsorbAllTabulates(d: Demographics, cs: seq<Customer>)
    requires forall i :: 0 <= i < |cs| ==> Countable(cs[i])
    ensures AbsorbAll(d, cs) == Tabulate(d, cs)
    decreases |cs|
  {
    if |cs| > 0 {
      var c := cs[0];
      var rest := cs[1..];
      assert forall i :: 0 <= i < |rest| ==> Countable(rest[i]);
      AbsorbAllTabulates(Absorb(d, c), rest);
      CountCons(d.ageGroups, AgeGroup(c.age), Column(rest, AgeGroupOf));
      CountCons(d.genderDistribution, c.gender, Column(rest, GenderOf));
      CountCons(d.reasonsForUse, c.primaryReason, Column(rest, ReasonOf));
      CountCons(d.shoppingMethods, c.preferredShoppingMethod, Column(rest, ShoppingMethodOf));
      CountCons(d.discoveryMethods, c.discoveryMethod, Column(rest, DiscoveryMethodOf));
      CountCons(d.incomeRanges, c.incomeRange, Column(rest, IncomeRangeOf));
      CountCons(d.educationLevels, c.educationLevel, Column(rest, EducationLevelOf));
      CountCons(d.communicationPreferences, c.preferredCommunication, Column(rest, CommunicationOf));
      CountAppend(d.productPreferences, ProductPieces(c), ProductColumn(rest));
      CountAppend(d.interestsHobbies, InterestPieces(c), InterestColumn(rest));
    }
  }

  /** The number of customers whose age falls in bucket `g`. */
  function InAgeGroup(cs: seq<Customer>, g: string): nat {
    if |cs| == 0 then 0 else (if AgeGroup(cs[0].age) == g then 1 else 0) + InAgeGroup(cs[1..], g)
  }

  lemma {:induction false} InAgeGroupCounted(cs: seq<Customer>, g: string)
    ensures multiset(Column(cs, AgeGroupOf))[g] == InAgeGroup(cs, g)
  {
    if |cs| > 0 {
      InAgeGroupCounted(cs[1..], g);
      assert Column(cs, AgeGroupOf) == [AgeGroup(cs[0].age)] + Column(cs[1..], AgeGroupOf);
    }
  }

  /** Whose count is maximal, and strictly larger than every count before it:
      the entry a stable descending sort by count puts first. */
  predicate IsFirstMax(t: Table, i: int) {
    && 0 <= i < |t|
    && (forall j :: 0 <= j < |t| ==> t[j].count <= t[i].count)
    && (forall j :: 0 <= j < i ==> t[j].count < t[i].count)
  }

  lemma FirstMaxUnique(t: Table, i: int, j: int)
    requires IsFirstMax(t, i) && IsFirstMax(t, j)
    ensures i == j
  {
    assert t[i].count <= t[j].count && t[j].count <= t[i].count;
  }

  function FirstMax(t: Table): (i: nat)
    requires |t| > 0
    ensures IsFirstMax(t, i)
    decreases |t|
  {
    if |t| == 1 then 0
    else
      var k := FirstMax(t[1..]) + 1;
      if t[k].count <= t[0].count then 0 else k
  }

  /** JavaScript's `key || 'N/A'`: the empty key is falsy. */
  function OrNotAvailable(key: string): string {
    if key == "" then NotAvailable else key
  }

  /** `Object.entries(t).sort(([, a], [, b]) => b - a)[0]?.[0] || 'N/A'`. */
  function Mode(t: Table): (r: string)
    ensures |t| == 0 ==> r == NotAvailable
    ensures |t| > 0 ==> exists i :: IsFirstMax(t, i) && r == OrNotAvailable(t[i].key)
  {
    if |t| == 0 then NotAvailable else OrNotAvailable(t[FirstMax(t)].key)
  }

  /** `loyaltyMembers / totalCustomers * 100`, guarded against an empty store. */
  function LoyaltyRate(members: nat, total: nat): (r: real)
    ensures total == 0 ==> r == 0.0
    ensures total > 0 ==> r * (total as real) == (members as real) * 100.0
    ensures members <= total ==> 0.0 <= r <= 100.0
  {
    if total > 0 then (members as real) / (total as real) * 100.0 else 0.0
  }

  function SumAges(cs: seq<Customer>): int {
    if |cs| == 0 then 0 else cs[0].age + SumAges(cs[1..])
  }

  /** The mean age rounded half up, 0 when there are no customers. */
  function AverageAge(cs: seq<Customer>): (r: int)
    ensures |cs| == 0 ==> r == 0
    ensures |cs| > 0 ==> (r as real) - 0.5 <= (SumAges(cs) as real) / (|cs| as real) < (r as real) + 0.5
  {
    if |cs| > 0 then Numbers.RoundHalfUp(SumAges(cs), |cs|) else 0
  }

  lemma {:induction false} SumAgesBounds(cs: seq<Customer>, lo: int, hi: int)
    requires forall i :: 0 <= i < |cs| ==> lo <= cs[i].age <= hi
    ensures |cs| * lo <= SumAges(cs) <= |cs| * hi
  {
    if |cs| > 0 {
      SumAgesBounds(cs[1..], lo, hi);
    }
  }

  /** The average of ages that lie in a range lies in that range. */
  lemma AverageAgeWithin(cs: seq<Customer>, lo: int, hi: int)
    requires |cs| > 0
    requires forall i :: 0 <= i < |cs| ==> lo <= cs[i].age <= hi
    ensures lo <= AverageAge(cs) <= hi
  {
    SumAgesBounds(cs, lo, hi);
    Numbers.RoundedMeanWithin(SumAges(cs), |cs|, lo, hi);
  }

  /** The totals the route reads straight from the store. */
  datatype StoreCounts = StoreCounts(totalCustomers: nat, loyaltyMembers: nat, totalEmails: nat, sentToday: nat)

  datatype Metrics = Metrics(
    loyaltyRate: real,
    averageAge: int,
    mostPopularProduct: string,
    mostCommonReason: string,
    preferredShoppingChannel: string,
    topDiscoveryMethod: string)

  datatype Report = Report(counts: StoreCounts, engagementMetrics: Metrics, demographics: Demographics)

  /** The statistics route over a snapshot of the customers. */
  function GetStats(counts: StoreCounts, cs: seq<Customer>): (r: Result<Report>)
    ensures r.Err? <==> exists i :: 0 <= i < |cs| && !Countable(cs[i])
    ensures r.Ok? ==> r.value.counts == counts && Valid(r.value.demographics)
    ensures r.Ok? ==> r.value.demographics == Tabulate(NoDemographics, cs)
    ensures r.Ok? ==> var d := r.value.demographics;
      r.value.engagementMetrics == Metrics(
        LoyaltyRate(counts.loyaltyMembers, counts.totalCustomers),
        AverageAge(cs),
        Mode(d.productPreferences),
        Mode(d.reasonsForUse),
        Mode(d.shoppingMethods),
        Mode(d.discoveryMethods))
  {
    if exists i :: 0 <= i < |cs| && !Countable(cs[i]) then
      Err("Failed to fetch stats")
    else
      var d := AbsorbAll(NoDemographics, cs);
      AbsorbAllTabulates(NoDemographics, cs);
      Ok(Report(
        counts,
        Metrics(
          LoyaltyRate(counts.loyaltyMembers, counts.totalCustomers),
          AverageAge(cs),
          Mode(d.productPreferences),
          Mode(d.reasonsForUse),
          Mode(d.shoppingMethods),
          Mode(d.discoveryMethods)),
        d))
  }

  /** Every single-valued table of the report counts each customer once, the
      product and interest tables count every piece, and each age bucket counts
      the customers whose age falls in it. */
  lemma StatsCountEveryone(counts: StoreCounts, cs: seq<Customer>)
    requires forall i :: 0 <= i < |cs| ==> Countable(cs[i])
    ensures GetStats(counts, cs).Ok?
    ensures var d := GetStats(counts, cs).value.demographics;
      && Total(d.ageGroups) == |cs| && Total(d.genderDistribution) == |cs|
      && Total(d.reasonsForUse) == |cs| && Total(d.shoppingMethods) == |cs|
      && Total(d.discoveryMethods) == |cs| && Total(d.incomeRanges) == |cs|
      && Total(d.educationLevels) == |cs| && Total(d.communicationPreferences) == |cs|
      && Total(d.productPreferences) == |ProductColumn(cs)|
      && Total(d.interestsHobbies) == |InterestColumn(cs)|
      && forall g :: CountOf(d.ageGroups, g) == InAgeGroup(cs, g)
  {
    var d := GetStats(counts, cs).value.demographics;
    forall g
      ensures CountOf(d.ageGroups, g) == InAgeGroup(cs, g)
    {
      InAgeGroupCounted(cs, g);
    }
  }

  /** With no customers every rate and average is 0 and every mode "N/A". */
  lemma EmptyStoreStats(counts: StoreCounts)
    requires counts.totalCustomers == 0
    ensures GetStats(counts, []).Ok?
    ensures var m := GetStats(counts, []).value.engagementMetrics;
      && m.loyaltyRate == 0.0 && m.averageAge == 0
      && m.mostPopularProduct == NotAvailable && m.mostCommonReason == NotAvailable
      && m.preferredShoppingChannel == NotAvailable && m.topDiscoveryMethod == NotAvailable
  {
  }

  /** Joining with "," never produces ", " when no piece holds a comma or starts
      with a space. */
  lemma {:induction false} CommaJoinAvoidsCommaSpace(xs: seq<string>)
    requires forall i :: 0 <= i < |xs| ==> ',' !in xs[i] && !StartsWith(xs[i], " ")
    ensures !Contains(Join(xs, ","), PieceSeparator)
    ensures !StartsWith(Join(xs, ","), " ")
  {
    if |xs| == 1 {
      FirstCharBlocks(xs[0], "", PieceSeparator);
      assert xs[0] + "" == xs[0];
    } else if |xs| > 1 {
      CommaJoinAvoidsCommaSpace(xs[1..]);
      var j := Join(xs[1..], ",");
      PieceThenComma(xs[0], j);
      assert Join(xs, ",") == xs[0] + "," + j;
      if |xs[0]| > 0 {
        assert Join(xs, ",")[0] == xs[0][0];
      } else {
        assert Join(xs, ",")[0] == ',';
      }
    }
  }

  lemma {:induction false} PieceThenComma(x: string, j: string)
    requires ',' !in x && !Contains(j, PieceSeparator) && !StartsWith(j, " ")
    ensures !Contains(x + "," + j, PieceSeparator)
    decreases |x|
  {
    if |x| == 0 {
      assert x + "," + j == "," + j;
      assert ("," + j)[1..] == j;
      if |j| > 0 {
        assert ("," + j)[..2] == [',', j[0]];
      }
    } else {
      PieceThenComma(x[1..], j);
      assert (x + "," + j)[1..] == x[1..] + "," + j;
      assert (x + "," + j)[0] == x[0];
    }
  }

  /** The customer form stores products joined with "," while this route splits on
      ", ": a customer created with several products is counted under one key,
      the whole joined string, and never under the individual products. */
  lemma FormProductsCountAsOneKey(d: Demographics, c: Customer, xs: seq<string>)
    requires Countable(c)
    requires c.preferredProducts == Text(Join(xs, ","))
    requires forall i :: 0 <= i < |xs| ==> ',' !in xs[i] && !StartsWith(xs[i], " ")
    ensures ProductPieces(c) == [Join(xs, ",")]
    ensures CountOf(Absorb(d, c).productPreferences, Join(xs, ",")) == CountOf(d.productPreferences, Join(xs, ",")) + 1
    ensures Total(Absorb(d, c).productPreferences) == Total(d.productPreferences) + 1
  {
    CommaJoinAvoidsCommaSpace(xs);
    SplitWithoutSeparator(Join(xs, ","), PieceSeparator);
    CountOfCount(d.productPreferences, ProductPieces(c));
    assert multiset([Join(xs, ",")])[Join(xs, ",")] == 1;
  }
}

=== FILE: tally.dfy ===
/** Frequency tables as the statistics route builds them: a JavaScript object
    used as a string-keyed counter (`table[key] = (table[key] || 0) + 1`). The
    object's own-key order is insertion order for non-integer keys, so a table
    is a sequence of entries in the order their keys were first seen. */
module Tally {

  datatype Entry = Entry(key: string, count: nat)

  type Table = seq<Entry>

  /** The keys of a table in insertion order. */
  function Keys(t: Table): seq<string> {
    if |t| == 0 then [] else [t[0].key] + Keys(t[1..])
  }

  /** What `table[key] || 0` reads. */
  function CountOf(t: Table, k: string): nat {
    if |t| == 0 then 0 else if t[0].key == k then t[0].count else CountOf(t[1..], k)
  }

  /** The sum of all counts. */
  function Total(t: Table): nat {
    if |t| == 0 then 0 else t[0].count + Total(t[1..])
  }

  /** Every key occurs once and every count is at least one, as in any table built
      by counting. */
  predicate WellFormed(t: Table) {
    |t| == 0 || (t[0].count >= 1 && t[0].key !in Keys(t[1..]) && WellFormed(t[1..]))
  }

  lemma {:induction false} KeysCounted(t: Table, k: string)
    requires WellFormed(t)
    ensures k in Keys(t) <==> CountOf(t, k) >= 1
  {
    if |t| > 0 && t[0].key != k {
      KeysCounted(t[1..], k);
    }
  }

  /** `table[key] = (table[key] || 0) + 1`: an existing key keeps its place and
      gains one; a new key is appended with count one. */
  function Bump(t: Table, k: string): (r: Table)
    ensures WellFormed(t) ==> WellFormed(r)
    ensures Total(r) == Total(t) + 1
    ensures CountOf(r, k) == CountOf(t, k) + 1
    ensures forall other :: other != k ==> CountOf(r, other) == CountOf(t, other)
    ensures Keys(r) == if k in Keys(t) then Keys(t) else Keys(t) + [k]
  {
    if |t| == 0 then [Entry(k, 1)]
    else if t[0].key == k then [Entry(k, t[0].count + 1)] + t[1..]
    else
      var rest := Bump(t[1..], k);
      assert ([t[0]] + rest)[1..] == rest;
      [t[0]] + rest
  }

  /** Counting every element of `ks`, left to right. */
  function Count(t: Table, ks: seq<string>): (r: Table)
    ensures WellFormed(t) ==> WellFormed(r)
    ensures Total(r) == Total(t) + |ks|
    decreases |ks|
  {
    if |ks| == 0 then t
    else Count(Bump(t, ks[0]), ks[1..])
  }

  /** Each key gains as many counts as it occurs in `ks`. */
  lemma {:induction false} CountOfCount(t: Table, ks: seq<string>)
    ensures forall k :: CountOf(Count(t, ks), k) == CountOf(t, k) + multiset(ks)[k]
    decreases |ks|
  {
    if |ks| > 0 {
      CountOfCount(Bump(t, ks[0]), ks[1..]);
      assert ks == [ks[0]] + ks[1..];
    }
  }

  /** Counting a key and then the rest is counting the key first. */
  lemma CountCons(t: Table, k: string, ks: seq<string>)
    ensures Count(Bump(t, k), ks) == Count(t, [k] + ks)
  {
    assert ([k] + ks)[1..] == ks;
  }

  lemma CountAppendStep(t: Table, a: seq<string>, b: seq<string>)
    requires |a| > 0
    ensures Count(t, a) == Count(Bump(t, a[0]), a[1..])
    ensures Count(t, a + b) == Count(Bump(t, a[0]), a[1..] + b)
  {
    assert (a + b)[0] == a[0] && (a + b)[1..] == a[1..] + b;
  }

  /** Counting two sequences one after the other is counting their concatenation. */
  lemma {:induction false} CountAppend(t: Table, a: seq<string>, b: seq<string>)
    ensures Count(Count(t, a), b) == Count(t, a + b)
    decreases |a|
  {
    if |a| == 0 {
      assert a + b == b;
    } else {
      CountAppendStep(t, a, b);
      CountAppend(Bump(t, a[0]), a[1..], b);
    }
  }
}

=== FILE: text.dfy ===
/** The JavaScript string operations the dashboard relies on — `split` and `join`
    with a literal separator, `trim`, `toLowerCase`, `includes`, and the
    `replace(/\s+/g, '')` whitespace stripping — over ASCII text. */
module Text {
  import Seqs

  /** The characters `\s` and `trim` treat as whitespace, restricted to ASCII. */
  predicate IsSpace(c: char) {
    c == ' ' || c == '\t' || c == '\n' || c == '\r' || c == '\U{0B}' || c == '\U{0C}'
  }

  function LowerChar(c: char): char {
    if 'A' <= c <= 'Z' then (c as int + 32) as char else c
  }

  /** ASCII `toLowerCase`. */
  function Lower(s: string): string {
    seq(|s|, i requires 0 <= i < |s| => LowerChar(s[i]))
  }

  predicate Visible(c: char) {
    !IsSpace(c)
  }

  /** `s.replace(/\s+/g, '')`: every whitespace character removed, the others kept
      in order. */
  function StripSpaces(s: string): (r: string)
    ensures forall i :: 0 <= i < |r| ==> !IsSpace(r[i])
    ensures |r| <= |s|
    ensures r == Seqs.Filter(s, Visible)
  {
    if |s| == 0 then ""
    else if IsSpace(s[0]) then StripSpaces(s[1..])
    else [s[0]] + StripSpaces(s[1..])
  }

  lemma {:induction false} StripSpacesOfBlank(s: string)
    requires forall i :: 0 <= i < |s| ==> IsSpace(s[i])
    ensures StripSpaces(s) == ""
  {
    if |s| > 0 {
      StripSpacesOfBlank(s[1..]);
    }
  }

  predicate StartsWith(s: string, prefix: string) {
    |prefix| <= |s| && s[..|prefix|] == prefix
  }

  /** When `a` is a prefix of `b` at least as long as `p`, `b` and `a` agree on starting with `p`. */
  lemma StartsWithThroughPrefix(b: string, a: string, p: string)
    requires StartsWith(b, a) && |p| <= |a|
    ensures StartsWith(b, p) <==> StartsWith(a, p)
  {
    assert b[..|p|] == a[..|p|];
  }

  /** `s.includes(sub)`: `sub` occurs at some position of `s`. */
  predicate Contains(s: string, sub: string)
    decreases |s|
  {
    StartsWith(s, sub) || (|s| > 0 && Contains(s[1..], sub))
  }

  lemma ContainsEmpty(s: string)
    ensures Contains(s, "")
  {
  }

  lemma {:induction false} ContainsIsLonger(s: string, sub: string)
    requires Contains(s, sub)
    ensures |sub| <= |s|
    decreases |s|
  {
    if !StartsWith(s, sub) {
      ContainsIsLonger(s[1..], sub);
    }
  }

  lemma {:induction false} ContainsInLonger(a: string, b: string, sub: string)
    requires Contains(a, sub)
    ensures Contains(a + b, sub)
    decreases |a|
  {
    if StartsWith(a, sub) {
      assert (a + b)[..|sub|] == a[..|sub|];
    } else {
      ContainsInLonger(a[1..], b, sub);
      assert (a + b)[1..] == a[1..] + b;
    }
  }

  /** A string contains whatever is written in its middle. */
  lemma {:induction false} ContainsInfix(a: string, mid: string, b: string)
    ensures Contains(a + mid + b, mid)
    decreases |a|
  {
    if |a| == 0 {
      assert a + mid + b == mid + b;
      assert (mid + b)[..|mid|] == mid;
    } else {
      ContainsInfix(a[1..], mid, b);
      assert (a + mid + b)[1..] == a[1..] + mid + b;
    }
  }

  /** `parts.join(sep)`: the empty list joins to "" and one element to itself. */
  function Join(parts: seq<string>, sep: string): string
  {
    if |parts| == 0 then ""
    else if |parts| == 1 then parts[0]
    else parts[0] + sep + Join(parts[1..], sep)
  }

  lemma JoinStartsWithHead(parts: seq<string>, sep: string)
    requires |parts| >= 1
    ensures StartsWith(Join(parts, sep), parts[0])
  {
    if |parts| > 1 {
      var j := Join(parts, sep);
      assert j == parts[0] + (sep + Join(parts[1..], sep));
      assert j[..|parts[0]|] == parts[0];
    }
  }

  /** Prefixing a character to the first piece prefixes it to the join. */
  lemma JoinCons(c: char, rest: seq<string>, sep: string)
    requires |rest| >= 1
    ensures Join([[c] + rest[0]] + rest[1..], sep) == [c] + Join(rest, sep)
  {
    var parts := [[c] + rest[0]] + rest[1..];
    if |rest| > 1 {
      assert parts[1..] == rest[1..];
    }
  }

  /** The inductive step of `Split` when no separator starts at position 0: the
      first piece, extended by the first character, still holds no separator. */
  lemma HeadAvoidsSeparator(s: string, sep: string, rest: seq<string>)
    requires |s| > 0 && |sep| > 0 && !StartsWith(s, sep)
    requires |rest| >= 1 && Join(rest, sep) == s[1..] && !Contains(rest[0], sep)
    ensures !Contains([s[0]] + rest[0], sep)
  {
    var head := [s[0]] + rest[0];
    JoinStartsWithHead(rest, sep);
    assert s[..|head|] == head by {
      assert s == [s[0]] + s[1..];
    }
    if |sep| <= |head| {
      StartsWithThroughPrefix(s, head, sep);
    }
    assert head[1..] == rest[0];
  }

  /** `s.split(sep)` for a non-empty literal separator: the string is cut at every
      occurrence of `sep`, found left to right without overlap. */
  function Split(s: string, sep: string): (parts: seq<string>)
    requires |sep| > 0
    ensures |parts| >= 1
    ensures Join(parts, sep) == s
    ensures forall i :: 0 <= i < |parts| ==> !Contains(parts[i], sep)
    decreases |s|
  {
    if StartsWith(s, sep) then
      var rest := Split(s[|sep|..], sep);
      assert s == sep + s[|sep|..];
      [""] + rest
    else if |s| == 0 then
      [""]
    else
      var rest := Split(s[1..], sep);
      JoinCons(s[0], rest, sep);
      HeadAvoidsSeparator(s, sep, rest);
      assert s == [s[0]] + s[1..];
      [[s[0]] + rest[0]] + rest[1..]
  }

  /** The separator cannot be found starting inside `x` when `x` is followed by
      another copy of it: the condition under which joining and splitting agree. */
  predicate Separable(x: string, sep: string)
    requires |sep| > 0
  {
    !Contains(x + sep[..|sep| - 1], sep)
  }

  lemma SplitAtSeparator(sep: string, rest: string)
    requires |sep| > 0
    ensures Split(sep + rest, sep) == [""] + Split(rest, sep)
  {
    var s := sep + rest;
    assert s[..|sep|] == sep;
    assert s[|sep|..] == rest;
  }

  /** A separable, non-empty piece followed by the separator does not start with it,
      and neither does its tail. */
  lemma SeparableStep(x: string, sep: string, rest: string)
    requires |sep| > 0 && |x| > 0 && Separable(x, sep)
    ensures !StartsWith(x + sep + rest, sep)
    ensures Separable(x[1..], sep)
    ensures (x + sep + rest)[1..] == x[1..] + sep + rest
  {
    var n := |sep|;
    var s := x + sep + rest;
    var t := x + sep[..n - 1];
    assert StartsWith(s, t) by {
      assert s == t + ([sep[n - 1]] + rest) by {
        assert sep == sep[..n - 1] + [sep[n - 1]];
      }
    }
    StartsWithThroughPrefix(s, t, sep);
    assert t[1..] == x[1..] + sep[..n - 1];
  }

  lemma {:induction false} SplitPiece(x: string, sep: string, rest: string)
    requires |sep| > 0 && Separable(x, sep)
    ensures Split(x + sep + rest, sep) == [x] + Split(rest, sep)
    decreases |x|
  {
    if |x| == 0 {
      assert x + sep + rest == sep + rest;
      SplitAtSeparator(sep, rest);
    } else {
      var s := x + sep + rest;
      SeparableStep(x, sep, rest);
      SplitPiece(x[1..], sep, rest);
      var r := Split(s[1..], sep);
      assert r == [x[1..]] + Split(rest, sep);
      assert Split(s, sep) == [[s[0]] + r[0]] + r[1..];
      assert [s[0]] + r[0] == x;
    }
  }

  lemma SplitWithoutSeparator(s: string, sep: string)
    requires |sep| > 0 && !Contains(s, sep)
    ensures Split(s, sep) == [s]
  {
    var parts := Split(s, sep);
    if |parts| > 1 {
      ContainsInfix(parts[0], sep, Join(parts[1..], sep));
    }
  }

  /** Splitting a join recovers the pieces when every piece is separable. */
  lemma {:induction false} SplitJoin(xs: seq<string>, sep: string)
    requires |sep| > 0 && |xs| >= 1
    requires forall i :: 0 <= i < |xs| ==> Separable(xs[i], sep)
    ensures Split(Join(xs, sep), sep) == xs
  {
    if |xs| == 1 {
      if Contains(xs[0], sep) {
        ContainsInLonger(xs[0], sep[..|sep| - 1], sep);
      }
      SplitWithoutSeparator(xs[0], sep);
    } else {
      SplitJoin(xs[1..], sep);
      SplitPiece(xs[0], sep, Join(xs[1..], sep));
      assert xs == [xs[0]] + xs[1..];
    }
  }

  /** A piece that does not contain the separator's first character is separable. */
  lemma SeparableWithoutLead(x: string, sep: string)
    requires |sep| > 0 && sep[0] !in x
    ensures Separable(x, sep)
  {
    FirstCharBlocks(x, sep[..|sep| - 1], sep);
  }

  lemma {:induction false} FirstCharBlocks(x: string, tail: string, sep: string)
    requires |sep| > 0 && sep[0] !in x && |tail| < |sep|
    ensures !Contains(x + tail, sep)
    decreases |x|
  {
    if |x| == 0 {
      assert x + tail == tail;
      if Contains(tail, sep) {
        ContainsIsLonger(tail, sep);
      }
    } else {
      assert (x + tail)[0] == x[0];
      FirstCharBlocks(x[1..], tail, sep);
      assert (x + tail)[1..] == x[1..] + tail;
    }
  }

  /** Splitting on one character yields one more piece than there are occurrences of it. */
  lemma {:induction false} SplitCountsSeparators(s: string, c: char)
    ensures |Split(s, [c])| == multiset(s)[c] + 1
    decreases |s|
  {
    if |s| > 0 {
      SplitCountsSeparators(s[1..], c);
      SplitStep(s, c);
      OccurrencesStep(s, c);
    }
  }

  /** Counting `c` one character at a time. */
  lemma OccurrencesStep(s: string, c: char)
    requires |s| > 0
    ensures multiset(s)[c] == (if s[0] == c then 1 else 0) + multiset(s[1..])[c]
  {
    assert s == [s[0]] + s[1..];
  }

  /** Splitting on `c` one character at a time: a leading `c` opens a new piece. */
  lemma SplitStep(s: string, c: char)
    requires |s| > 0
    ensures |Split(s, [c])| == (if s[0] == c then 1 else 0) + |Split(s[1..], [c])|
  {
    if s[0] == c {
      assert s[..1] == [c];
    }
  }

  /** The number of whitespace characters `s` starts with. */
  function Leading(s: string): (n: nat)
    ensures n <= |s|
    ensures forall i :: 0 <= i < n ==> IsSpace(s[i])
    ensures n == |s| || !IsSpace(s[n])
  {
    if |s| > 0 && IsSpace(s[0]) then 1 + Leading(s[1..]) else 0
  }

  /** The number of whitespace characters `s` ends with. */
  function Trailing(s: string): (n: nat)
    ensures n <= |s|
    ensures forall i :: |s| - n <= i < |s| ==> IsSpace(s[i])
    ensures n == |s| || !IsSpace(s[|s| - 1 - n])
  {
    if |s| > 0 && IsSpace(s[|s| - 1]) then 1 + Trailing(s[..|s| - 1]) else 0
  }

  /** Neither the first nor the last character is whitespace. */
  predicate Trimmed(s: string) {
    |s| == 0 || (!IsSpace(s[0]) && !IsSpace(s[|s| - 1]))
  }

  /** `s.trim()`: the infix left once the whitespace at both ends is cut. */
  function Trim(s: string): (r: string)
    ensures Trimmed(r) && |r| <= |s|
    ensures Trimmed(s) ==> r == s
    ensures Leading(s) + |r| <= |s| && r == s[Leading(s)..Leading(s) + |r|]
    ensures forall i :: 0 <= i < Leading(s) ==> IsSpace(s[i])
    ensures forall i :: Leading(s) + |r| <= i < |s| ==> IsSpace(s[i])
  {
    if Leading(s) == |s| then "" else s[Leading(s)..|s| - Trailing(s)]
  }
}
